=== FILE: README.md ===
# GPSConver time conversions in Dafny

A model of the conversion engine of `time_conver.c` from GPSConver. The engine
converts between four time representations:

- calendar time (`common_time_t`: year, month, day, hour, minute, second);
- the Julian Day (`julianday_t`: day number, then seconds since that day's noon);
- GPS time (`gps_time_t`: weeks since 1980-01-06 00:00, then seconds of the week);
- day of year (`doy_t`: year, day of the year, then seconds since midnight).

Every C conversion only reads its input and writes only through its result
pointer, so each one is a Dafny function from one datatype to another. Four of
them (time_conver.c:133, 163, 186, 200) first copy the input with `memcpy`; the
others read it in place, and the compositions pass the input pointer straight
on. The caller's record is never changed. The C arithmetic is written out:

- `double` is an exact `real`;
- every `(int)`, `(long)` or `(short)` cast of a double truncates toward zero (`CNumeric.Trunc`);
- integer `/` and `%` truncate toward zero (`CNumeric.CDiv`, `CNumeric.CMod`);
- storing into an `unsigned short` field keeps the value modulo 2^16 (`CNumeric.U16`).

The conversions are proved against an independent reference, `CalendarSpec`.
It counts days one month and one year at a time, adding a leap day every
fourth year. The formulas know no century exception, and neither does the
reference. Their results are therefore true Gregorian Julian Days only from
March 1900 to February 2100.

Modules, one file each:

- `CNumeric` (`c_numeric.dfy`): C casts and integer division, and `time_get_frac`.
- `TimeTypes` (`time_types.dfy`): the four representations.
- `CalendarSpec` (`calendar_spec.dfy`): the reference day count and its inverse.
- `Julian` (`julian.dfy`): calendar time <-> Julian Day.
- `Gps` (`gps.dfy`): Julian Day <-> GPS time, as written and corrected.
- `DayOfYear` (`day_of_year.dfy`): calendar time <-> day of year.
- `Composed` (`composed.dfy`): the conversions built from two or three of the others. The two that end in GPS time come twice: as written, through the GPS conversion at time_conver.c:191, and with the corrected GPS conversion. Each round trip through them is stated for both.
- `Command` (`command.dfy`): decoding the name of a representation.

The model follows the code where it departs from the textbook algorithm:

- Years from 100 to 1899 are not kept as they are: the code adds 1900 to every year below 1900 that is not below 80.
- The day number, the GPS week and the day of the year are truncated toward zero, not rounded or floored. For the inputs the lemmas cover, the truncated value is non-negative, or (for the seconds of the week) the argument is already a whole number.

## Model

| member | source | states |
|---|---|---|
| CNumeric.Frac | time_conver.c:122-125 | `time_get_frac` returns a fraction in [0, 1) for a non-negative argument, and in (-1, 0] for a negative one; what it removes is a whole number |
| Julian.NormalizeYear | time_conver.c:135-141 | years from 1900 on are kept; 0..99 become 1980..2079 with the same last two digits; 100..1899 get 1900 added; every year from -100 on ends at 1900 or later |
| Julian.NormalizedSameJulian | time_conver.c:135-141 | for years from 0 on, year disambiguation is idempotent, and converting an already disambiguated time gives the same Julian Day |
| Julian.CommonToJulian | time_conver.c:128-154 | for a valid clock time the seconds since noon lie in [0, 86400) and the fraction in [0, 1); the fraction and the whole seconds add back to `second` |
| Julian.CalendarTerms | time_conver.c:145-150 | no contract of its own; its partner lemma Julian.CalendarTermsCount states what the integer terms add up to |
| Julian.CalendarTermsCount | time_conver.c:145-150 | for every valid date from year 1 on, `(int)(365.25 * y) + (int)(30.6001 * (m + 1)) + day`, with January and February as months 13 and 14 of the previous year, is the reference day count + 428 |
| Julian.CommonToJulianInstant | time_conver.c:128-154 | the Julian Day value is the reference day count of the date + 1721409.5 + the clock seconds / 86400; the day number is one higher from 12:00 on |
| Julian.NoonStartsNewDay | time_conver.c:150-151 | on one date, any time from 12:00 on has a day number exactly one larger than any time before 12:00 |
| Julian.HeaderFixedPoints | time_conver.c:21 | 1979-10-01 00:00 is Julian day 2444147 with 43200 s since noon (JD 2444147.5), and converts back; 2004-02-29 12:30:15.25 survives the round trip |
| Julian.DayNumberOfCommon | time_conver.c:128-154 | `(int)(JD + 0.5)` of a valid calendar time is its reference day count + 1721410, whatever the time of day |
| Julian.JulianToCommon | time_conver.c:157-178 | for a normalised Julian day the clock time is valid and equals the seconds since noon shifted by 12 hours |
| Julian.DateFromDayNumber | time_conver.c:166-174 | the a/b/c/d/e chain, shared with time_conver.c:271-279; no contract of its own: its partner lemmas Julian.DateFromDayNumberInverts and Julian.DateFromDayNumberCounts state that it inverts the reference day count |
| Julian.DateFromDayNumberInverts | time_conver.c:166-174 | the a/b/c/d/e chain maps the day number of every valid date from year 1 on back to that date |
| Julian.DateFromDayNumberCounts | time_conver.c:166-174 | every day number from 1721411 on decodes to the reference date with day count `a - 1721410` |
| Julian.ClockRoundTrip | time_conver.c:152-177 | hour, minute and second (fraction included) come back exactly through the seconds since noon |
| Julian.NoonTodRoundTrip | time_conver.c:152-177 | seconds since noon and their fraction come back exactly through the clock fields |
| Julian.CommonJulianRoundTrip | time_conver.c:128-178 | calendar -> Julian Day -> calendar returns every valid calendar time exactly, year disambiguated |
| Julian.JulianToCommonValid | time_conver.c:157-178 | from 1900-01-01 00:00 on, a normalised Julian day decodes to a valid calendar time with a year from 1900 on |
| Julian.JulianCommonRoundTrip | time_conver.c:128-178 | Julian Day -> calendar -> Julian Day returns every normalised Julian day from 1900-01-01 00:00 on |
| Julian.JulianWeekEarlier | time_conver.c:157-178 | for a normalised Julian day from JD 1721417.5 on, the Julian day seven days earlier at the same time of day decodes to the date of day count `(int)(JD + 0.5) - 1721417` (seven days before the input's) and to the same clock time |
| Gps.JulianToGpsAsWritten | time_conver.c:181-193 | the fraction of a second is copied; after the epoch the seconds of the week lie in [-43200, 561600) |
| Gps.AsWrittenWeekAndSecond | time_conver.c:181-193 | after the epoch, the week is (seconds since the epoch) / 604800; the seconds of the week are the remainder, or the remainder - 604800 from Saturday 12:00 on |
| Gps.JulianToGps | time_conver.c:181-193 | corrected conversion: the fraction is copied and after the epoch the seconds of the week lie in [0, 604800) |
| Gps.JulianToGpsSameInstant | time_conver.c:181-193 | after the epoch, the corrected conversion yields a normalised GPS time naming the same second since the epoch |
| Gps.EpochSecondsSign | time_conver.c:187-189 | a normalised Julian day is on or after the GPS epoch exactly when its value is at least 2444244.5 |
| Gps.GpsToJulian | time_conver.c:196-205 | the fraction is copied; for seconds of the week from -43200 on, the seconds since noon lie in [0, 86400) |
| Gps.GpsToJulianSameInstant | time_conver.c:196-205 | GPS -> Julian Day names the same second since the epoch, and the result is normalised exactly when the fraction is in [0, 1) |
| Gps.GpsRoundTripAsWritten | time_conver.c:181-205 | through the code as written, GPS -> Julian Day -> GPS is the identity below second 561600 of the week, and returns the seconds 604800 short from there on |
| Gps.GpsRoundTrip | time_conver.c:181-205 | with the corrected conversion, GPS -> Julian Day -> GPS is the identity on every normalised GPS time |
| Gps.JulianGpsRoundTrip | time_conver.c:181-205 | with the corrected conversion, Julian Day -> GPS -> Julian Day is the identity on every normalised Julian day from the epoch on |
| Gps.AsWrittenVersusCorrected | time_conver.c:181-193 | from the epoch on, the written conversion agrees with the corrected one below second 561600 of the week, and from there on gives the same week with the second 604800 short |
| Gps.WeekShortIsWeekEarlier | time_conver.c:196-205 | a second of the week 604800 short converts to the same Julian day as that second of the previous week |
| Gps.GpsWeekEarlier | time_conver.c:196-205 | one GPS week number lower is exactly seven Julian days earlier, at the same time of day |
| Gps.AsWrittenWeekEarly | time_conver.c:181-205 | from Saturday 12:00 on, the written GPS time converts back to the Julian day seven days before the input, the instant of the corrected GPS time one week lower |
| Gps.GpsEpoch | time_conver.c:24 | JD 2444244.5 is week 0, second 0, and back |
| Gps.SaturdayNoonCounterexample | time_conver.c:191 | JD 2444251.0 (1980-01-12 12:00, second 561600 of week 0) gives second -43200 of week 0 as written, which converts back to JD 2444244.0; the corrected conversion gives second 561600 |
| DayOfYear.CommonToDoy | time_conver.c:226-250 | the year is copied modulo 2^16 without disambiguation; for a valid clock time the seconds count from midnight, lie in [0, 86400), and add up with the fraction to the clock seconds |
| Julian.ClockSecondsSplit | time_conver.c:248-249 | the whole seconds since midnight are the whole seconds of the clock fields |
| DayOfYear.NewYearJulian | time_conver.c:231-240 | 1 January 00:00 of a year is JD (days before the year + 1) + 1721409.5 |
| DayOfYear.CommonToDoyDay | time_conver.c:242-246 | the day of the year is the days of the earlier months plus the day of the month, whatever the time of day |
| DayOfYear.LastDayOfYear | time_conver.c:242-246 | 31 December is day 366 in a leap year and day 365 otherwise |
| DayOfYear.HeaderDayOfYear | time_conver.c:27 | 2004-05-01 00:00 is day 122 of 2004 |
| DayOfYear.DoyJulianValue | time_conver.c:267-269 | no contract of its own; Julian Day of 1 January 00:00 plus `day - 1` days and the seconds; DayOfYear.NewYearJulian and DayOfYear.DoyToCommonDate state where it lands |
| DayOfYear.DoyToCommon | time_conver.c:253-283 | hour, minute and second add up to the seconds since midnight, and form a valid clock time when those are below 86400; the fraction of the second is the fraction carried |
| DayOfYear.ClockOfDay | time_conver.c:280-282 | hour, minute and second add back to the seconds since midnight; below 86400 they form a valid clock time, and the second keeps the fraction |
| DayOfYear.ClockFromSeconds | time_conver.c:280-281 | the hour and minute recomputed from the clock seconds of a valid clock time are the original ones |
| DayOfYear.DoyClock | time_conver.c:280-282 | day of year -> calendar gives back the hour, minute and second of any valid clock time whose seconds it carries |
| DayOfYear.DoyToCommonDate | time_conver.c:267-279 | the date is the reference date of day `day` of the (disambiguated) year, whatever the time of day |
| DayOfYear.DoyFracVanishes | time_conver.c:279 | adding `time_get_frac(JD + 0.5)` never changes the decoded day, for every instant from 1 January of year 1 on |
| DayOfYear.CommonDoyRoundTrip | time_conver.c:226-283 | calendar -> day of year -> calendar returns every valid calendar time exactly, year disambiguated, for years 0..32767 (the `(short)` cast of the year at time_conver.c:279) |
| DayOfYear.DoyCommonRoundTrip | time_conver.c:226-283 | day of year -> calendar -> day of year is the identity for years 1900..32767 (the `(short)` cast of the year at time_conver.c:279), valid days and normalised seconds |
| Composed.CommonToGpsAsWritten | time_conver.c:208-214 | as written: the fraction of the second is carried; from the epoch day on, the seconds of the week lie in [-43200, 561600) |
| Composed.CommonToGps | time_conver.c:208-214 | the corrected composition (corrected GPS step): the fraction is carried; from the epoch day on, the seconds of the week lie in [0, 604800) |
| Composed.GpsToCommon | time_conver.c:217-223 | for seconds of the week from -43200 on and a fraction in [0, 1), the clock time is valid and keeps the fraction |
| Composed.GpsToDoy | time_conver.c:286-294 | for seconds of the week from -43200 on and a fraction in [0, 1), the seconds since midnight are normalised and keep the fraction |
| Composed.DoyToGpsAsWritten | time_conver.c:297-303 | as written: the fraction of the second is carried |
| Composed.DoyToGps | time_conver.c:297-303 | the corrected composition (corrected GPS step): the fraction of the second is carried |
| Composed.JulianToDoy | time_conver.c:306-312 | for a normalised Julian day the seconds since noon become seconds since midnight (shifted by 12 hours modulo one day), normalised, with the fraction kept |
| Composed.JulianToDoyTod | time_conver.c:306-312 | the same time-of-day statement, proved through the calendar time |
| Composed.DoyToJulian | time_conver.c:315-321 | for normalised seconds since midnight, the seconds since noon are them shifted by 12 hours modulo one day, normalised, with the fraction kept |
| Composed.DoyToJulianTod | time_conver.c:315-321 | the same time-of-day statement, proved through the calendar time |
| Composed.CommonGpsRoundTrip | time_conver.c:208-223 | with the corrected GPS conversion: a valid calendar time from 1980-01-06 on converts to a normalised GPS time and back to itself |
| Composed.GpsCommonRoundTrip | time_conver.c:208-223 | with the corrected GPS conversion: every normalised GPS time converts to a valid calendar time from 1980 on and back to itself |
| Composed.GpsEpochCalendar | time_conver.c:208-223 | 1980-01-06 00:00, also written with year 80, is week 0, second 0 (as written and corrected), and week 0, second 0 converts back to it |
| Composed.DoyJulianAgrees | time_conver.c:315-321 | calendar -> day of year -> Julian Day agrees with the direct conversion, for years 0..32767 (the `(short)` cast of the year at time_conver.c:279) |
| Composed.JulianDoyRoundTrip | time_conver.c:306-321 | Julian Day -> day of year -> Julian Day is the identity from 1900-01-01 on, for years below 32768 (the `(short)` cast of the year at time_conver.c:279) |
| Composed.DoyJulianRoundTrip | time_conver.c:306-321 | day of year -> Julian Day -> day of year is the identity for years 1900..32767 (the `(short)` cast of the year at time_conver.c:279) |
| Composed.GpsDoyRoundTrip | time_conver.c:286-303 | with the corrected GPS conversion: GPS -> day of year -> GPS is the identity on normalised GPS times, for years below 32768 (the `(short)` cast of the year at time_conver.c:279) |
| Composed.DoyGpsRoundTrip | time_conver.c:286-303 | with the corrected GPS conversion: day of year -> GPS -> day of year is the identity from 1980 day 6 on, for years up to 32767 (the `(short)` cast of the year at time_conver.c:279) |
| Composed.CommonAfterEpoch | time_conver.c:128-154 | a valid calendar time from 1980-01-06 on has a normalised Julian day on or after the GPS epoch |
| Composed.CommonToGpsAsWrittenShift | time_conver.c:181-214 | calendar -> GPS as written equals the corrected result below second 561600 of the week, and is the same week with the second 604800 short from there on |
| Composed.WeekEarlierCalendar | time_conver.c:157-178 | the Julian day seven days before that of a valid calendar time decodes to a valid date with day count 7 less, at the same clock time |
| Composed.CommonGpsRoundTripAsWritten | time_conver.c:181-223 | calendar -> GPS -> calendar as written: the identity below second 561600 of the week; from Saturday 12:00 on, the calendar time of the previous week's second: a valid date 7 days earlier at the same clock time |
| Composed.SaturdayAfternoonCalendar | time_conver.c:181-223 | from Saturday 12:00 on, calendar -> GPS as written -> calendar gives the calendar time of the previous week's second, 7 days earlier at the same clock time |
| Composed.GpsCommonRoundTripAsWritten | time_conver.c:181-223 | GPS -> calendar -> GPS as written: the identity below second 561600 of the week, and the same week with the second 604800 short from there on |
| Composed.SaturdayNoonCalendar | time_conver.c:181-223 | 1980-01-12 12:00 is week 0, second 561600 corrected but second -43200 as written, which converts back to 1980-01-05 12:00 |
| Composed.GpsDoyRoundTripAsWritten | time_conver.c:286-303 | GPS -> day of year -> GPS as written, for years below 32768 (the `(short)` cast of the year at time_conver.c:279): the identity below second 561600 of the week, the second 604800 short from there on |
| Composed.DoyGpsRoundTripAsWritten | time_conver.c:286-303 | day of year -> GPS as written -> day of year, for years 1980..32767 (the `(short)` cast of the year at time_conver.c:279): the identity before Saturday 12:00 of the GPS week, and from then on the day of year of the corrected GPS time one week number lower |
| Composed.DoyBeforeSaturdayNoon | time_conver.c:297-303 | before Saturday 12:00, day of year -> GPS as written equals the corrected result |
| Composed.DoySaturdayAfternoon | time_conver.c:297-303 | from Saturday 12:00 on, day of year -> GPS as written -> day of year gives the day of year of the corrected GPS time one week number lower |
| Command.TypeFromName | time_conver.c:359-383 | the result is a type code from -2 to `TIME_MAX` or `Terminate`; it is `Terminate` exactly for names starting with "exit", and -1 exactly for names starting with "quit" |
| Command.KeywordsExclusive | time_conver.c:359-383 | no name starts with two different keywords, so the order of the tests does not matter |
| Command.TypeFromNameByKeyword | time_conver.c:359-383 | a name starting with a keyword selects that keyword's result: gps 2, ct 0, doy 3, jd 1, all 4, quit -1, exit terminates |
| Command.TypeFromNameUnknown | time_conver.c:378-381 | the result is -2 exactly when the name starts with no keyword |
| Command.TypeFromNameNamesKeyword | time_conver.c:362-380 | a name that gets a keyword's result starts with that keyword, so the result names the keyword that matched (the converse of `TypeFromNameByKeyword`) |
| Command.TypeFromNameExamples | time_conver.c:359-383 | each keyword, longer words starting with one, and the empty, one-letter and upper-case names decode as the chain says |

## Left out

- The interactive loops `time_convert_gps`, `time_convert_ct`, `time_convert_jd`, `time_convert_doy` and `main` (time_conver.c:500-857): prompt and console I/O only.
- `time_print` (time_conver.c:323-357): console output only.
- `time_convert` and the slots `g_gt`, `g_ct`, `g_jd`, `g_doy` (time_conver.c:116-119, 385-498): they route to the conversions and store results for printing.
- The compiled-out `getopt` block: it is not part of the program.
- The error message printed for an unknown name (time_conver.c:378-379): output only. `exit(0)` for "exit" is the result `Terminate`, not the end of a process.
- IEEE-754 doubles: constants such as 30.6001 and 122.1 are exact rationals here, and binary rounding is not reproduced.
- Overflow of `int` and `long`, and of the `short` casts in `time_conver_doy_to_commontime` (time_conver.c:277-281): these are unbounded here. The `unsigned short` fields are modelled modulo 2^16. A year from 32768 on does not fit the `(short)` cast at time_conver.c:279, so every round trip through the day of year requires years below 32768; above that bound the model's `DayOfYear.DoyToCommon` keeps the year, where the C would not.
- The century rule: like the code, the model treats 1900 and 2100 as leap years, so its Julian Days are the astronomical ones only from March 1900 to February 2100.
- GPS times before the epoch: the GPS lemmas require instants from 1980-01-06 00:00 on, and seconds of the week from -43200 on for GPS -> Julian Day.
- Julian.JulianCommonRoundTrip: states the round trip only from 1900-01-01, because earlier instants decode to years below 1900, which the forward conversion reads as two-digit years.
- Composed.CommonToGps, Composed.DoyToGps: built on the corrected `Gps.JulianToGps`. The code as written (time_conver.c:213, 302) inherits the Saturday-afternoon error below; `Composed.CommonToGpsAsWritten` and `Composed.DoyToGpsAsWritten` are the literal compositions.
- Composed.CommonGpsRoundTrip: holds with the corrected GPS conversion only; through the code as written it holds only before Saturday 12:00, see Composed.CommonGpsRoundTripAsWritten.
- Composed.GpsCommonRoundTrip: holds with the corrected GPS conversion only; through the code as written the second comes back 604800 short from second 561600 of the week on, see Composed.GpsCommonRoundTripAsWritten.
- Composed.GpsDoyRoundTrip: holds with the corrected GPS conversion only; the code as written is described by Composed.GpsDoyRoundTripAsWritten.
- Composed.DoyGpsRoundTrip: holds with the corrected GPS conversion only; the code as written is described by Composed.DoyGpsRoundTripAsWritten.

## Findings

| source | as written | input that shows it | evidently intended | confidence | as-written member | corrected member |
|---|---|---|---|---|---|---|
| time_conver.c:191 | the seconds of the week come from `(day - 2444244) % 7` on the noon-based Julian day number minus half a day, so from Saturday 12:00 to midnight they are 604800 too small and negative | JD 2444251.0 (1980-01-12 12:00, second 561600 of week 0) gives week 0, second -43200; converting back gives JD 2444244.0, one week earlier | seconds of the week in [0, 604800), so that GPS -> Julian Day -> GPS is the identity | not executed | Gps.JulianToGpsAsWritten | Gps.JulianToGps |

=== FILE: c_numeric.dfy ===
/** The C arithmetic the conversions rely on, stated over Dafny's unbounded
    `int` and exact `real`: casts of a double to an integer type truncate
    toward zero, integer `/` and `%` truncate toward zero, and storing into an
    `unsigned short` keeps the value modulo 2^16. */
module CNumeric {

  /** `(int)r`, `(long)r` or `(short)r` in C: the integer part of `r`, rounded toward zero. */
  function Trunc(r: real): (t: int)
    ensures 0.0 <= r ==> 0 <= t && t as real <= r < t as real + 1.0
    ensures r < 0.0 ==> t <= 0 && t as real - 1.0 < r <= t as real
  {
    if r >= 0.0 then r.Floor else -((-r).Floor)
  }

  /** `time_get_frac`: what is left of `r` once its truncated integer part is taken off. */
  function Frac(r: real): (f: real)
    ensures 0.0 <= r ==> 0.0 <= f < 1.0
    ensures r < 0.0 ==> -1.0 < f <= 0.0
    ensures (r - f).Floor as real == r - f
  {
    r - Trunc(r) as real
  }

  /** C's integer `/` for a positive divisor: the quotient is rounded toward zero. */
  function CDiv(a: int, b: int): (q: int)
    requires b > 0
    ensures 0 <= a ==> 0 <= q && q * b <= a < q * b + b
    ensures a < 0 ==> q <= 0 && q * b - b < a <= q * b
  {
    if a >= 0 then a / b else -((-a) / b)
  }

  /** C's integer `%` for a positive divisor: the remainder has the sign of the dividend. */
  function CMod(a: int, b: int): (r: int)
    requires b > 0
    ensures r == a - CDiv(a, b) * b
    ensures 0 <= a ==> 0 <= r < b
    ensures a < 0 ==> -b < r <= 0
  {
    if a >= 0 then a % b else -((-a) % b)
  }

  /** Conversion of an integer to `unsigned short`: the value modulo 2^16. */
  function U16(x: int): (u: int)
    ensures 0 <= u < 0x1_0000
    ensures 0 <= x < 0x1_0000 ==> u == x
  {
    x % 0x1_0000
  }

  /** A non-negative whole number plus a fraction in [0, 1) truncates to the whole number. */
  lemma TruncWholeAndFraction(n: int, f: real)
    ensures 0 <= n && 0.0 <= f < 1.0 ==> Trunc(n as real + f) == n && Frac(n as real + f) == f
  {
  }
}

=== FILE: calendar_spec.dfy ===
/** An independent reference for the calendar arithmetic: days counted one
    month and one year at a time. The conversion formulas of time_conver.c
    add a leap day every fourth year and know no century exception, so this
    reference does the same; the two leap rules agree from 1901 to 2099. */
module CalendarSpec {
  import opened TimeTypes

  /** Every fourth year is a leap year (no century exception). */
  predicate IsLeapYear(y: int)
  {
    y % 4 == 0
  }

  function DaysInYear(y: int): int
  {
    if IsLeapYear(y) then 366 else 365
  }

  /** Length of month `m` (1 = January) of year `y`. */
  function DaysInMonth(y: int, m: int): int
  {
    if m == 2 then (if IsLeapYear(y) then 29 else 28)
    else if m == 4 || m == 6 || m == 9 || m == 11 then 30
    else 31
  }

  predicate ValidDate(dt: Date)
  {
    1 <= dt.month <= 12 && 1 <= dt.day <= DaysInMonth(dt.year, dt.month)
  }

  /** Days in the months of year `y` before month `m`. */
  function DaysBeforeMonth(y: int, m: int): int
    decreases m
  {
    if m <= 1 then 0 else DaysBeforeMonth(y, m - 1) + DaysInMonth(y, m - 1)
  }

  /** Days in the years before year `y`, counted from 1 January of year 1. */
  function DaysBeforeYear(y: int): int
  {
    365 * (y - 1) + (y - 1) / 4
  }

  /** Ordinal of a date: 1 January of year 1 is day 1. */
  function DayCount(dt: Date): int
  {
    DaysBeforeYear(dt.year) + DaysBeforeMonth(dt.year, dt.month) + dt.day
  }

  /** The cumulative month table: 0, 31, 59, 90, ... with one more day from
      March on in a leap year, and a whole year before the thirteenth month. */
  lemma {:induction false} DaysBeforeMonthTable(y: int)
    ensures DaysBeforeMonth(y, 1) == 0
    ensures DaysBeforeMonth(y, 2) == 31
    ensures DaysBeforeMonth(y, 3) == 59 + DaysInYear(y) - 365
    ensures DaysBeforeMonth(y, 4) == 90 + DaysInYear(y) - 365
    ensures DaysBeforeMonth(y, 5) == 120 + DaysInYear(y) - 365
    ensures DaysBeforeMonth(y, 6) == 151 + DaysInYear(y) - 365
    ensures DaysBeforeMonth(y, 7) == 181 + DaysInYear(y) - 365
    ensures DaysBeforeMonth(y, 8) == 212 + DaysInYear(y) - 365
    ensures DaysBeforeMonth(y, 9) == 243 + DaysInYear(y) - 365
    ensures DaysBeforeMonth(y, 10) == 273 + DaysInYear(y) - 365
    ensures DaysBeforeMonth(y, 11) == 304 + DaysInYear(y) - 365
    ensures DaysBeforeMonth(y, 12) == 334 + DaysInYear(y) - 365
    ensures DaysBeforeMonth(y, 13) == DaysInYear(y)
  {
    assert DaysBeforeMonth(y, 1) == 0;
    assert DaysBeforeMonth(y, 2) == DaysBeforeMonth(y, 1) + 31;
    assert DaysBeforeMonth(y, 3) == DaysBeforeMonth(y, 2) + DaysInMonth(y, 2);
    assert DaysBeforeMonth(y, 4) == DaysBeforeMonth(y, 3) + 31;
    assert DaysBeforeMonth(y, 5) == DaysBeforeMonth(y, 4) + 30;
    assert DaysBeforeMonth(y, 6) == DaysBeforeMonth(y, 5) + 31;
    assert DaysBeforeMonth(y, 7) == DaysBeforeMonth(y, 6) + 30;
    assert DaysBeforeMonth(y, 8) == DaysBeforeMonth(y, 7) + 31;
    assert DaysBeforeMonth(y, 9) == DaysBeforeMonth(y, 8) + 31;
    assert DaysBeforeMonth(y, 10) == DaysBeforeMonth(y, 9) + 30;
    assert DaysBeforeMonth(y, 11) == DaysBeforeMonth(y, 10) + 31;
    assert DaysBeforeMonth(y, 12) == DaysBeforeMonth(y, 11) + 30;
    assert DaysBeforeMonth(y, 13) == DaysBeforeMonth(y, 12) + 31;
  }

  /** The ordinal of a valid date within its year lies between 1 and the
      length of the year. */
  lemma DayOfYearBounds(dt: Date)
    requires ValidDate(dt)
    ensures 1 <= DaysBeforeMonth(dt.year, dt.month) + dt.day <= DaysInYear(dt.year)
  {
    DaysBeforeMonthTable(dt.year);
  }

  /** Consecutive years are `DaysInYear` apart. */
  lemma YearStep(y: int)
    ensures DaysBeforeYear(y + 1) == DaysBeforeYear(y) + DaysInYear(y)
  {
    var q, r := (y - 1) / 4, (y - 1) % 4;
    assert y - 1 == 4 * q + r && 0 <= r < 4;
    if r == 3 {
      assert y == 4 * (q + 1);
      assert y / 4 == q + 1;
    } else {
      assert y == 4 * q + r + 1 && r + 1 < 4;
      assert y / 4 == q;
    }
  }

  /** The month holding day `k` of year `y`, searching from month `m` on. */
  function MonthOfYearDay(y: int, k: int, m: int): (r: int)
    requires 1 <= m <= 12 && DaysBeforeMonth(y, m) < k <= DaysInYear(y)
    ensures m <= r <= 12
    ensures DaysBeforeMonth(y, r) < k <= DaysBeforeMonth(y, r) + DaysInMonth(y, r)
    decreases 12 - m
  {
    DaysBeforeMonthTable(y);
    if m == 12 || k <= DaysBeforeMonth(y, m + 1) then m else MonthOfYearDay(y, k, m + 1)
  }

  /** Day `k` (1-based) of year `y` as a calendar date. */
  function DateOfYearDay(y: int, k: int): (dt: Date)
    requires 1 <= k <= DaysInYear(y)
    ensures ValidDate(dt) && dt.year == y
    ensures DaysBeforeMonth(y, dt.month) + dt.day == k
  {
    var m := MonthOfYearDay(y, k, 1);
    Date(y, m, k - DaysBeforeMonth(y, m))
  }

  /** The date whose ordinal is `n`: the inverse of `DayCount`. Years come in
      cycles of 1461 days, the fourth year of each cycle being the leap year. */
  function DateOfDayCount(n: int): (dt: Date)
    ensures ValidDate(dt) && DayCount(dt) == n
  {
    var q, rem := (n - 1) / 1461, (n - 1) % 1461;
    var r := if rem >= 1460 then 3 else rem / 365;
    var y := 4 * q + r + 1;
    assert (y - 1) / 4 == q;
    assert DaysBeforeYear(y) == 1461 * q + 365 * r;
    DateOfYearDay(y, rem - 365 * r + 1)
  }

  /** `DayCount` is one-to-one on valid dates. */
  lemma {:induction false} DayCountInjective(a: Date, b: Date)
    requires ValidDate(a) && ValidDate(b) && DayCount(a) == DayCount(b)
    ensures a == b
  {
    DayOfYearBounds(a);
    DayOfYearBounds(b);
    if a.year < b.year {
      YearsApart(a.year, b.year);
      assert false;
    } else if b.year < a.year {
      YearsApart(b.year, a.year);
      assert false;
    }
    SameYearDayInjective(a, b);
  }

  /** `DateOfDayCount` recovers every valid date from its ordinal. */
  lemma DateOfDayCountRecovers(dt: Date)
    requires ValidDate(dt)
    ensures DateOfDayCount(DayCount(dt)) == dt
  {
    DayCountInjective(DateOfDayCount(DayCount(dt)), dt);
  }

  /** Within one year, the ordinal of the day determines month and day. */
  lemma SameYearDayInjective(a: Date, b: Date)
    requires ValidDate(a) && ValidDate(b) && a.year == b.year
    requires DaysBeforeMonth(a.year, a.month) + a.day == DaysBeforeMonth(b.year, b.month) + b.day
    ensures a == b
  {
    DaysBeforeMonthTable(a.year);
  }

  /** A later year starts after every day of an earlier year. */
  lemma {:induction false} YearsApart(y: int, z: int)
    requires y < z
    ensures DaysBeforeYear(z) >= DaysBeforeYear(y) + DaysInYear(y)
    decreases z - y
  {
    YearStep(y);
    if y + 1 < z {
      YearsApart(y + 1, z);
      YearStep(y + 1);
    }
  }

  /** A day count from 1 January of year `y` on falls in year `y` or later. */
  lemma LaterDayCountLaterYear(n: int, y: int)
    requires n > DaysBeforeYear(y)
    ensures DateOfDayCount(n).year >= y
  {
    var dt := DateOfDayCount(n);
    if dt.year < y {
      YearsApart(dt.year, y);
      DaysBeforeMonthTable(dt.year);
    }
  }
}

=== FILE: command.dfy ===
/** The name of a time representation typed at the prompt:
    `time_get_type_from_name` (time_conver.c:359-383). */
module Command {

  /** `time_type_e` (time_conver.c:89-95). */
  const TimeCommon := 0
  const TimeJulian := 1
  const TimeGps := 2
  const TimeDoy := 3
  const TimeMax := 4

  /** What a name selects: a type code (`TIME_MAX` standing for "all"), -1
      for "quit", -2 for an unknown name, or the end of the program for
      "exit". */
  datatype NameResult = Code(code: int) | Terminate

  /** `time_get_type_from_name`: the keywords are tried in this order, each
      matching any name that starts with it (`memcmp` over the keyword's
      length). */
  function TypeFromName(name: string): (r: NameResult)
    ensures r.Code? ==> -2 <= r.code <= TimeMax
    ensures r == Terminate <==> "exit" <= name
    ensures r == Code(-1) <==> "quit" <= name
  {
    assert "exit" <= name ==> name[0] == "exit"[0];
    assert "quit" <= name ==> name[0] == "quit"[0];
    if "gps" <= name then Code(TimeGps)
    else if "ct" <= name then Code(TimeCommon)
    else if "doy" <= name then Code(TimeDoy)
    else if "jd" <= name then Code(TimeJulian)
    else if "all" <= name then Code(TimeMax)
    else if "quit" <= name then Code(-1)
    else if "exit" <= name then Terminate
    else Code(-2)
  }

  /** The keywords and what each selects, as a table. */
  const Keywords: seq<(string, NameResult)> :=
    [("gps", Code(TimeGps)), ("ct", Code(TimeCommon)), ("doy", Code(TimeDoy)),
     ("jd", Code(TimeJulian)), ("all", Code(TimeMax)), ("quit", Code(-1)),
     ("exit", Terminate)]

  /** No two keywords start with the same letter, so no name starts with two
      of them: the order in which they are tried does not matter. */
  lemma KeywordsExclusive(name: string, i: int, j: int)
    requires 0 <= i < |Keywords| && 0 <= j < |Keywords|
    requires Keywords[i].0 <= name && Keywords[j].0 <= name
    ensures i == j
  {
    assert Keywords[i].0[0] == name[0] == Keywords[j].0[0];
  }

  /** Any keyword the name starts with decides the result. */
  lemma TypeFromNameByKeyword(name: string, i: int)
    requires 0 <= i < |Keywords| && Keywords[i].0 <= name
    ensures TypeFromName(name) == Keywords[i].1
  {
    forall j | 0 <= j < |Keywords| && Keywords[j].0 <= name
      ensures j == i
    {
      KeywordsExclusive(name, i, j);
    }
    if i > 0 { assert !(Keywords[0].0 <= name); }
    if i > 1 { assert !(Keywords[1].0 <= name); }
    if i > 2 { assert !(Keywords[2].0 <= name); }
    if i > 3 { assert !(Keywords[3].0 <= name); }
    if i > 4 { assert !(Keywords[4].0 <= name); }
    if i > 5 { assert !(Keywords[5].0 <= name); }
  }

  /** A name is reported unknown (-2) exactly when it starts with no keyword. */
  lemma TypeFromNameUnknown(name: string)
    ensures TypeFromName(name) == Code(-2) <==> forall i :: 0 <= i < |Keywords| ==> !(Keywords[i].0 <= name)
  {
    if exists i :: 0 <= i < |Keywords| && Keywords[i].0 <= name {
      var i :| 0 <= i < |Keywords| && Keywords[i].0 <= name;
      TypeFromNameByKeyword(name, i);
    } else {
      assert !(Keywords[0].0 <= name) && !(Keywords[1].0 <= name) && !(Keywords[2].0 <= name);
      assert !(Keywords[3].0 <= name) && !(Keywords[4].0 <= name) && !(Keywords[5].0 <= name);
      assert !(Keywords[6].0 <= name);
    }
  }

  /** The result names the keyword that matched: a name that gets a
      keyword's result starts with that keyword. */
  lemma TypeFromNameNamesKeyword(name: string, i: int)
    requires 0 <= i < |Keywords| && TypeFromName(name) == Keywords[i].1
    ensures Keywords[i].0 <= name
  {
    assert Keywords[i].1 != Code(-2);
    TypeFromNameUnknown(name);
    var j :| 0 <= j < |Keywords| && Keywords[j].0 <= name;
    TypeFromNameByKeyword(name, j);
    assert Keywords[j].1 == Keywords[i].1;
  }

  /** The prompt's own words and what they select, including longer words
      that start with a keyword. */
  lemma TypeFromNameExamples()
    ensures TypeFromName("gps") == Code(TimeGps) && TypeFromName("ct") == Code(TimeCommon)
    ensures TypeFromName("doy") == Code(TimeDoy) && TypeFromName("jd") == Code(TimeJulian)
    ensures TypeFromName("all") == Code(TimeMax) && TypeFromName("quit") == Code(-1)
    ensures TypeFromName("exit") == Terminate
    ensures TypeFromName("gpstime") == Code(TimeGps) && TypeFromName("exiting") == Terminate
    ensures TypeFromName("g") == Code(-2) && TypeFromName("") == Code(-2) && TypeFromName("GPS") == Code(-2)
  {
    TypeFromNameByKeyword("doy", 2);
    TypeFromNameByKeyword("jd", 3);
    TypeFromNameByKeyword("all", 4);
    TypeFromNameByKeyword("quit", 5);
    TypeFromNameByKeyword("exit", 6);
    TypeFromNameByKeyword("exiting", 6);
  }
}

=== FILE: composed.dfy ===
/** The conversions that go through another representation
    (time_conver.c:208-223 and 286-321). Each is the composition of the
    direct conversions, in the order the C functions call them. The two
    that end in GPS time come twice: as written, through
    `Gps.JulianToGpsAsWritten`, and corrected, through `Gps.JulianToGps`. */
module Composed {
  import opened CNumeric
  import opened TimeTypes
  import opened CalendarSpec
  import opened Julian
  import opened Gps
  import opened DayOfYear

  /** `time_conver_commontime_to_gpstime` (time_conver.c:208-214) as
      written: through the Julian Day and `Gps.JulianToGpsAsWritten`. */
  function CommonToGpsAsWritten(ct: CommonTime): (g: GpsTime)
    ensures g.tow.tos == Frac(ct.second)
    ensures ValidClock(ct) && CommonToJulian(ct).day >= 2444244 ==> -43200 <= g.tow.sn < 561600
  {
    JulianToGpsAsWritten(CommonToJulian(ct))
  }

  /** Calendar time -> GPS time through the Julian Day, with the corrected
      `Gps.JulianToGps`. */
  function CommonToGps(ct: CommonTime): (g: GpsTime)
    ensures g.tow.tos == Frac(ct.second)
    ensures ValidClock(ct) && CommonToJulian(ct).day >= 2444244 ==> 0 <= g.tow.sn < 604800
  {
    JulianToGps(CommonToJulian(ct))
  }

  /** `time_conver_gpstime_to_commontime` (time_conver.c:217-223): through the Julian Day. */
  function GpsToCommon(g: GpsTime): (ct: CommonTime)
    ensures -43200 <= g.tow.sn && 0.0 <= g.tow.tos < 1.0 ==> ValidClock(ct) && Frac(ct.second) == g.tow.tos
  {
    JulianToCommon(GpsToJulian(g))
  }

  /** `time_conver_gpstime_to_doy` (time_conver.c:286-294): GPS -> Julian
      Day -> calendar (that is, `GpsToCommon`) -> day of year. */
  function GpsToDoy(g: GpsTime): (doy: Doy)
    ensures -43200 <= g.tow.sn && 0.0 <= g.tow.tos < 1.0 ==> ValidTod(doy.tod) && doy.tod.tos == g.tow.tos
  {
    CommonToDoy(GpsToCommon(g))
  }

  /** `time_conver_doy_to_gpstime` (time_conver.c:297-303) as written:
      day of year -> calendar -> GPS through `CommonToGpsAsWritten`. */
  function DoyToGpsAsWritten(doy: Doy): (g: GpsTime)
    ensures ValidTod(doy.tod) ==> g.tow.tos == doy.tod.tos
  {
    CommonToGpsAsWritten(DoyToCommon(doy))
  }

  /** Day of year -> calendar -> GPS, with the corrected GPS step. */
  function DoyToGps(doy: Doy): (g: GpsTime)
    ensures ValidTod(doy.tod) ==> g.tow.tos == doy.tod.tos
  {
    CommonToGps(DoyToCommon(doy))
  }

  /** `time_conver_julianday_to_doy` (time_conver.c:306-312): through the
      calendar. The seconds since noon become seconds since midnight. */
  function JulianToDoy(jd: JulianDay): (doy: Doy)
    ensures ValidTod(jd.tod) ==> ValidTod(doy.tod) && doy.tod.tos == jd.tod.tos
    ensures ValidTod(jd.tod) ==> doy.tod.sn == CMod(jd.tod.sn + 43200, 86400)
  {
    JulianToDoyTod(jd);
    CommonToDoy(JulianToCommon(jd))
  }

  /** The time of day through calendar time: the seconds since noon become
      seconds since midnight, the fraction is kept. */
  lemma JulianToDoyTod(jd: JulianDay)
    ensures ValidTod(jd.tod) ==>
              var doy := CommonToDoy(JulianToCommon(jd));
              && ValidTod(doy.tod) && doy.tod.tos == jd.tod.tos
              && doy.tod.sn == CMod(jd.tod.sn + 43200, 86400)
  {
    if ValidTod(jd.tod) {
      var ct := JulianToCommon(jd);
      assert ValidClock(ct) && Frac(ct.second) == jd.tod.tos;
      assert ClockSeconds(ct) == CMod(jd.tod.sn + 43200, 86400) as real + jd.tod.tos;
      var doy := CommonToDoy(ct);
      assert doy.tod.sn as real + doy.tod.tos == ClockSeconds(ct);
      assert doy.tod.tos == jd.tod.tos;
    }
  }

  /** `time_conver_doy_to_julianday` (time_conver.c:315-321): through the
      calendar. The seconds since midnight become seconds since noon. */
  function DoyToJulian(doy: Doy): (jd: JulianDay)
    ensures ValidTod(doy.tod) ==>
              && ValidTod(jd.tod) && jd.tod.tos == doy.tod.tos
              && jd.tod.sn == CMod(doy.tod.sn + 43200, 86400)
  {
    DoyToJulianTod(doy);
    CommonToJulian(DoyToCommon(doy))
  }

  /** The time of day through calendar time: the seconds since midnight
      become seconds since noon, the fraction is kept. */
  lemma DoyToJulianTod(doy: Doy)
    ensures ValidTod(doy.tod) ==>
              var t := CommonToJulian(DoyToCommon(doy)).tod;
              && ValidTod(t) && t.tos == doy.tod.tos
              && t.sn == CMod(doy.tod.sn + 43200, 86400)
  {
    if ValidTod(doy.tod) {
      NoonTodOfClock(DoyToCommon(doy), doy.tod);
    }
  }

  /** A clock time `t` after midnight is `t` shifted by twelve hours after
      noon. */
  lemma NoonTodOfClock(ct: CommonTime, t: Tod)
    requires ValidTod(t) && ValidClock(ct)
    requires ClockSeconds(ct) == t.sn as real + t.tos && Frac(ct.second) == t.tos
    ensures ValidTod(CommonToJulian(ct).tod) && CommonToJulian(ct).tod.tos == t.tos
    ensures CommonToJulian(ct).tod.sn == CMod(t.sn + 43200, 86400)
  {
    TruncWholeAndFraction(t.sn, t.tos);
  }

  /** 1980-01-06, the first day of GPS week 0. */
  const GpsEpochDate := Date(1980, 1, 6)

  /** The day count of the GPS epoch: Julian day 2444244.5 less 1721409.5. */
  lemma GpsEpochDayCount()
    ensures DayCount(GpsEpochDate) == 2444244 - 1721409
  {
    assert DaysBeforeMonth(1980, 1) == 0;
  }

  /** A calendar time on or after the GPS epoch converts to a normalised GPS
      time, and back to itself (year disambiguated). */
  lemma CommonGpsRoundTrip(ct: CommonTime)
    requires ValidCommon(ct) && DayCount(DateOf(Normalized(ct))) >= DayCount(GpsEpochDate)
    ensures ValidGps(CommonToGps(ct))
    ensures GpsToCommon(CommonToGps(ct)) == Normalized(ct)
  {
    var jd := CommonToJulian(ct);
    CommonToJulianInstant(ct);
    EpochSecondsSign(jd);
    JulianToGpsSameInstant(jd);
    JulianGpsRoundTrip(jd);
    CommonJulianRoundTrip(ct);
  }

  /** Every normalised GPS time converts to a calendar time and back to itself. */
  lemma GpsCommonRoundTrip(g: GpsTime)
    requires ValidGps(g)
    ensures ValidCommon(GpsToCommon(g)) && GpsToCommon(g).year >= 1980
    ensures CommonToGps(GpsToCommon(g)) == g
  {
    var jd := GpsToJulian(g);
    GpsToJulianSameInstant(g);
    EpochSecondsSign(jd);
    JulianToCommonValid(jd);
    LaterDayCountLaterYear(Trunc(JulianValue(jd) + 0.5) - 1721410, 1980);
    JulianCommonRoundTrip(jd);
    GpsRoundTrip(g);
  }

  /** The epoch in calendar terms, also written with a two-digit year. */
  lemma GpsEpochCalendar()
    ensures CommonToGps(CommonTime(1980, 1, 6, 0, 0, 0.0)) == GpsTime(0, Tod(0, 0.0))
    ensures CommonToGps(CommonTime(80, 1, 6, 0, 0, 0.0)) == GpsTime(0, Tod(0, 0.0))
    ensures CommonToGpsAsWritten(CommonTime(1980, 1, 6, 0, 0, 0.0)) == GpsTime(0, Tod(0, 0.0))
    ensures GpsToCommon(GpsTime(0, Tod(0, 0.0))) == CommonTime(1980, 1, 6, 0, 0, 0.0)
  {
    CommonGpsRoundTrip(CommonTime(1980, 1, 6, 0, 0, 0.0));
    EpochMidnightJulian(1980);
    EpochMidnightJulian(80);
    GpsEpoch();
  }

  /** Midnight at the start of 1980-01-06, with the year written in four
      digits or in two, is Julian day 2444244 plus half a day. */
  lemma EpochMidnightJulian(year: int)
    requires year == 80 || year == 1980
    ensures CommonToJulian(CommonTime(year, 1, 6, 0, 0, 0.0)) == JulianDay(2444244, Tod(43200, 0.0))
  {
    assert DaysBeforeMonth(1980, 1) == 0;
    CommonToJulianInstant(CommonTime(year, 1, 6, 0, 0, 0.0));
  }

  /** Calendar -> day of year -> Julian Day agrees with the direct
      conversion, for years below 32768, which the `(short)` cast of the
      year at time_conver.c:279 keeps. */
  lemma DoyJulianAgrees(ct: CommonTime)
    requires ValidCommon(ct) && 0 <= ct.year < 0x8000
    ensures DoyToJulian(CommonToDoy(ct)) == CommonToJulian(ct)
  {
    CommonDoyRoundTrip(ct);
    NormalizedSameJulian(ct);
  }

  /** Julian Day -> day of year -> Julian Day is the identity from
      1900-01-01 on, for years below 32768, which the `(short)` cast of the
      year at time_conver.c:279 keeps. */
  lemma JulianDoyRoundTrip(jd: JulianDay)
    requires ValidTod(jd.tod) && JulianValue(jd) >= 2415019.5 && JulianToCommon(jd).year < 0x8000
    ensures DoyToJulian(JulianToDoy(jd)) == jd
  {
    var ct := JulianToCommon(jd);
    JulianToCommonValid(jd);
    CommonDoyRoundTrip(ct);
    JulianCommonRoundTrip(jd);
  }

  /** Day of year -> Julian Day -> day of year is the identity for
      four-digit years below 32768, which the `(short)` cast of the year at
      time_conver.c:279 keeps. */
  lemma DoyJulianRoundTrip(doy: Doy)
    requires 1900 <= doy.year < 0x8000 && 1 <= doy.day <= DaysInYear(doy.year) && ValidTod(doy.tod)
    ensures JulianToDoy(DoyToJulian(doy)) == doy
  {
    var ct := DoyToCommon(doy);
    DoyToCommonDate(doy);
    assert ValidCommon(ct) && Normalized(ct) == ct;
    CommonJulianRoundTrip(ct);
    DoyCommonRoundTrip(doy);
  }

  /** GPS -> day of year -> GPS is the identity for years below 32768, which
      the `(short)` cast of the year at time_conver.c:279 keeps. */
  lemma GpsDoyRoundTrip(g: GpsTime)
    requires ValidGps(g) && GpsToCommon(g).year < 0x8000
    ensures DoyToGps(GpsToDoy(g)) == g
  {
    var ct := GpsToCommon(g);
    GpsCommonRoundTrip(g);
    CommonDoyRoundTrip(ct);
  }

  /** Day of year -> GPS -> day of year is the identity from 6 January 1980
      on, for years below 32768, which the `(short)` cast of the year at
      time_conver.c:279 keeps. */
  lemma DoyGpsRoundTrip(doy: Doy)
    requires 1980 <= doy.year < 0x8000 && 1 <= doy.day <= DaysInYear(doy.year) && ValidTod(doy.tod)
    requires doy.year == 1980 ==> 6 <= doy.day
    ensures GpsToDoy(DoyToGps(doy)) == doy
  {
    var ct := DoyToCommon(doy);
    DoyToCommonDate(doy);
    assert ValidCommon(ct) && Normalized(ct) == ct;
    assert DayCount(DateOf(ct)) == DaysBeforeYear(doy.year) + doy.day;
    if doy.year > 1980 {
      YearsApart(1980, doy.year);
    }
    CommonGpsRoundTrip(ct);
    DoyCommonRoundTrip(doy);
  }

  // ---------------------------------------------------------------------
  // The GPS compositions as written

  /** A valid calendar time from the GPS epoch on has a normalised Julian
      day on or after the epoch. */
  lemma CommonAfterEpoch(ct: CommonTime)
    requires ValidCommon(ct) && DayCount(DateOf(Normalized(ct))) >= DayCount(GpsEpochDate)
    ensures var jd := CommonToJulian(ct);
            ValidTod(jd.tod) && JulianEpochSeconds(jd) >= 0 && jd.day >= 2444244
  {
    var jd := CommonToJulian(ct);
    CommonToJulianInstant(ct);
    EpochSecondsSign(jd);
  }

  /** Calendar time -> GPS time as written agrees with the corrected
      conversion up to Saturday 12:00, and is 604800 s short after it. */
  lemma CommonToGpsAsWrittenShift(ct: CommonTime)
    requires ValidCommon(ct) && DayCount(DateOf(Normalized(ct))) >= DayCount(GpsEpochDate)
    ensures var g := CommonToGps(ct);
            && (g.tow.sn < 561600 ==> CommonToGpsAsWritten(ct) == g)
            && (g.tow.sn >= 561600 ==> CommonToGpsAsWritten(ct) == WeekShort(g))
  {
    CommonAfterEpoch(ct);
    AsWrittenVersusCorrected(CommonToJulian(ct));
  }

  /** The calendar time seven days before a valid calendar time, read off
      the Julian day seven days earlier: same clock time, day count 7 less. */
  lemma WeekEarlierCalendar(ct: CommonTime)
    requires ValidCommon(ct) && DayCount(DateOf(Normalized(ct))) >= DayCount(GpsEpochDate)
    ensures var jd := CommonToJulian(ct);
            var back := JulianToCommon(WeekBefore(jd));
            && ValidDate(DateOf(back))
            && DayCount(DateOf(back)) == DayCount(DateOf(Normalized(ct))) - 7
            && back.hour == ct.hour && back.minute == ct.minute && back.second == ct.second
  {
    GpsEpochDayCount();
    DayNumberOfCommon(ct);
    WeekEarlierDayCount(CommonToJulian(ct), DayCount(DateOf(Normalized(ct))));
    ClockRoundTrip(ct);
  }

  /** The Julian day seven days before day number `n + 1721410` is the
      calendar date with day count `n - 7`, at the same clock time. */
  lemma WeekEarlierDayCount(jd: JulianDay, n: int)
    requires ValidTod(jd.tod) && n >= 8 && Trunc(JulianValue(jd) + 0.5) == n + 1721410
    ensures var back := JulianToCommon(WeekBefore(jd));
            var ct := JulianToCommon(jd);
            && ValidDate(DateOf(back)) && DayCount(DateOf(back)) == n - 7
            && back.hour == ct.hour && back.minute == ct.minute && back.second == ct.second
  {
    JulianWeekEarlier(jd);
  }

  /** Calendar -> GPS -> calendar through the code as written: the identity
      up to Saturday 12:00 of each GPS week; from then to the end of the week
      the result is the same clock time seven days earlier, the calendar time
      of the previous week's second. */
  lemma CommonGpsRoundTripAsWritten(ct: CommonTime)
    requires ValidCommon(ct) && DayCount(DateOf(Normalized(ct))) >= DayCount(GpsEpochDate)
    ensures var g := CommonToGps(ct);
            var back := GpsToCommon(CommonToGpsAsWritten(ct));
            && (g.tow.sn < 561600 ==> back == Normalized(ct))
            && (g.tow.sn >= 561600 ==> back == GpsToCommon(PreviousWeek(g)))
            && (g.tow.sn >= 561600 ==>
                  && ValidDate(DateOf(back))
                  && DayCount(DateOf(back)) == DayCount(DateOf(Normalized(ct))) - 7
                  && back.hour == ct.hour && back.minute == ct.minute && back.second == ct.second)
  {
    var g := CommonToGps(ct);
    CommonGpsRoundTrip(ct);
    CommonToGpsAsWrittenShift(ct);
    if g.tow.sn >= 561600 {
      SaturdayAfternoonCalendar(ct);
    }
  }

  /** From Saturday 12:00 on, the written conversion lands on the previous
      week's second, which is the same clock time seven days earlier. */
  lemma SaturdayAfternoonCalendar(ct: CommonTime)
    requires ValidCommon(ct) && DayCount(DateOf(Normalized(ct))) >= DayCount(GpsEpochDate)
    requires CommonToGps(ct).tow.sn >= 561600
    ensures var g := CommonToGps(ct);
            var back := GpsToCommon(CommonToGpsAsWritten(ct));
            && back == GpsToCommon(PreviousWeek(g))
            && ValidDate(DateOf(back))
            && DayCount(DateOf(back)) == DayCount(DateOf(Normalized(ct))) - 7
            && back.hour == ct.hour && back.minute == ct.minute && back.second == ct.second
  {
    CommonAfterEpoch(ct);
    SaturdayAfternoonJulian(ct);
    SaturdayAfternoonPreviousWeek(ct);
    WeekEarlierCalendar(ct);
  }

  /** From Saturday 12:00 on, the written conversion converts back to the
      calendar time of the Julian day seven days before that of the input. */
  lemma SaturdayAfternoonJulian(ct: CommonTime)
    requires ValidTod(CommonToJulian(ct).tod) && JulianEpochSeconds(CommonToJulian(ct)) >= 0
    requires CommonToGps(ct).tow.sn >= 561600
    ensures GpsToCommon(CommonToGpsAsWritten(ct))
              == JulianToCommon(WeekBefore(CommonToJulian(ct)))
  {
    GpsThroughJulian(ct);
    AsWrittenCommonWeekEarly(CommonToJulian(ct));
  }

  /** ... which is the corrected GPS time one week number lower. */
  lemma SaturdayAfternoonPreviousWeek(ct: CommonTime)
    requires ValidTod(CommonToJulian(ct).tod) && JulianEpochSeconds(CommonToJulian(ct)) >= 0
    requires CommonToGps(ct).tow.sn >= 561600
    ensures GpsToCommon(CommonToGpsAsWritten(ct)) == GpsToCommon(PreviousWeek(CommonToGps(ct)))
  {
    GpsThroughJulian(ct);
    AsWrittenCommonWeekEarly(CommonToJulian(ct));
  }

  /** An unfolding step, not a property: both calendar -> GPS compositions
      go through the Julian day of the calendar time. The proofs above use it
      to reach the lemmas of `Gps`. */
  lemma GpsThroughJulian(ct: CommonTime)
    ensures CommonToGpsAsWritten(ct) == JulianToGpsAsWritten(CommonToJulian(ct))
    ensures CommonToGps(ct) == JulianToGps(CommonToJulian(ct))
  {
  }

  /** The same on a Julian day: the written GPS time converts back to the
      calendar time seven days early. */
  lemma AsWrittenCommonWeekEarly(jd: JulianDay)
    requires ValidTod(jd.tod) && JulianEpochSeconds(jd) >= 0 && JulianToGps(jd).tow.sn >= 561600
    ensures GpsToCommon(JulianToGpsAsWritten(jd)) == GpsToCommon(PreviousWeek(JulianToGps(jd)))
    ensures GpsToCommon(JulianToGpsAsWritten(jd)) == JulianToCommon(WeekBefore(jd))
  {
    AsWrittenWeekEarly(jd);
  }

  /** GPS -> calendar -> GPS through the code as written: the identity below
      second 561600 of the week, 604800 s short from there on. */
  lemma GpsCommonRoundTripAsWritten(g: GpsTime)
    requires ValidGps(g)
    ensures g.tow.sn < 561600 ==> CommonToGpsAsWritten(GpsToCommon(g)) == g
    ensures g.tow.sn >= 561600 ==> CommonToGpsAsWritten(GpsToCommon(g)) == WeekShort(g)
  {
    var jd := GpsToJulian(g);
    GpsToJulianSameInstant(g);
    EpochSecondsSign(jd);
    JulianCommonRoundTrip(jd);
    GpsRoundTripAsWritten(g);
  }

  /** Saturday 1980-01-12 12:00 through the code as written: GPS week 0,
      second -43200, which converts back to Saturday 1980-01-05 12:00. */
  lemma SaturdayNoonCalendar()
    ensures CommonToGpsAsWritten(CommonTime(1980, 1, 12, 12, 0, 0.0)) == GpsTime(0, Tod(-43200, 0.0))
    ensures GpsToCommon(GpsTime(0, Tod(-43200, 0.0))) == CommonTime(1980, 1, 5, 12, 0, 0.0)
    ensures CommonToGps(CommonTime(1980, 1, 12, 12, 0, 0.0)) == GpsTime(0, Tod(561600, 0.0))
  {
    CommonJulianRoundTrip(CommonTime(1980, 1, 5, 12, 0, 0.0));
    NoonJulianDay(12);
    NoonJulianDay(5);
    SaturdayNoonCounterexample();
  }

  /** Noon on day `d` of January 1980 is the start of Julian day
      2444239 + `d`. */
  lemma NoonJulianDay(d: int)
    requires 1 <= d <= 31
    ensures CommonToJulian(CommonTime(1980, 1, d, 12, 0, 0.0)) == JulianDay(2444239 + d, Tod(0, 0.0))
  {
    var ct := CommonTime(1980, 1, d, 12, 0, 0.0);
    assert DaysBeforeMonth(1980, 1) == 0;
    CommonToJulianInstant(ct);
  }

  /** GPS -> day of year -> GPS through the code as written: the identity
      below second 561600 of the week, 604800 s short from there on, for
      years below 32768, which the `(short)` cast of the year at
      time_conver.c:279 keeps. */
  lemma GpsDoyRoundTripAsWritten(g: GpsTime)
    requires ValidGps(g) && GpsToCommon(g).year < 0x8000
    ensures g.tow.sn < 561600 ==> DoyToGpsAsWritten(GpsToDoy(g)) == g
    ensures g.tow.sn >= 561600 ==> DoyToGpsAsWritten(GpsToDoy(g)) == WeekShort(g)
  {
    var ct := GpsToCommon(g);
    GpsCommonRoundTrip(g);
    CommonDoyRoundTrip(ct);
    GpsCommonRoundTripAsWritten(g);
  }

  /** Day of year -> GPS -> day of year through the code as written: the
      identity up to Saturday 12:00 of each GPS week, and from then on the
      day of year of the previous week's second, for years below 32768,
      which the `(short)` cast of the year at time_conver.c:279 keeps. */
  lemma DoyGpsRoundTripAsWritten(doy: Doy)
    requires 1980 <= doy.year < 0x8000 && 1 <= doy.day <= DaysInYear(doy.year) && ValidTod(doy.tod)
    requires doy.year == 1980 ==> 6 <= doy.day
    ensures var g := DoyToGps(doy);
            && (g.tow.sn < 561600 ==> GpsToDoy(DoyToGpsAsWritten(doy)) == doy)
            && (g.tow.sn >= 561600 ==> GpsToDoy(DoyToGpsAsWritten(doy)) == GpsToDoy(PreviousWeek(g)))
  {
    var ct := DoyToCommon(doy);
    DoyToCommonDate(doy);
    assert ValidCommon(ct) && Normalized(ct) == ct;
    assert DayCount(DateOf(ct)) == DaysBeforeYear(doy.year) + doy.day;
    if doy.year > 1980 {
      YearsApart(1980, doy.year);
    }
    CommonAfterEpoch(ct);
    DoyGpsRoundTrip(doy);
    if DoyToGps(doy).tow.sn >= 561600 {
      DoySaturdayAfternoon(doy);
    } else {
      DoyBeforeSaturdayNoon(doy);
    }
  }

  /** Day of year -> GPS as written agrees with the corrected conversion
      before Saturday 12:00. */
  lemma DoyBeforeSaturdayNoon(doy: Doy)
    requires var jd := CommonToJulian(DoyToCommon(doy)); ValidTod(jd.tod) && jd.day >= 2444244
    requires DoyToGps(doy).tow.sn < 561600
    ensures DoyToGpsAsWritten(doy) == DoyToGps(doy)
  {
    var ct := DoyToCommon(doy);
    DoyGpsThroughCommon(doy);
    GpsThroughJulian(ct);
    AsWrittenVersusCorrected(CommonToJulian(ct));
  }

  /** From Saturday 12:00 on, day of year -> GPS as written converts back to
      the day of year of the corrected GPS time one week number lower. */
  lemma DoySaturdayAfternoon(doy: Doy)
    requires var jd := CommonToJulian(DoyToCommon(doy)); ValidTod(jd.tod) && JulianEpochSeconds(jd) >= 0
    requires DoyToGps(doy).tow.sn >= 561600
    ensures var g := DoyToGps(doy);
            GpsToDoy(DoyToGpsAsWritten(doy)) == GpsToDoy(PreviousWeek(g))
  {
    DoyGpsThroughCommon(doy);
    SaturdayAfternoonPreviousWeek(DoyToCommon(doy));
  }

  /** An unfolding step, not a property: both day of year -> GPS
      compositions go through the calendar time. The proofs above use it to
      reach the calendar -> GPS lemmas. */
  lemma DoyGpsThroughCommon(doy: Doy)
    ensures DoyToGpsAsWritten(doy) == CommonToGpsAsWritten(DoyToCommon(doy))
    ensures DoyToGps(doy) == CommonToGps(DoyToCommon(doy))
  {
  }
}

=== FILE: day_of_year.dfy ===
/** Calendar time <-> day of year: `time_conver_commontime_to_doy` and
    `time_conver_doy_to_commontime` (time_conver.c:226-283).

    Both directions measure days from 1 January 00:00:00 of the same year
    through the Julian Day formula, and carry the time of day separately,
    counted from midnight. */
module DayOfYear {
  import opened CNumeric
  import opened TimeTypes
  import opened CalendarSpec
  import opened Julian

  /** 1 January, 00:00:00 of `year`: the reference both directions build. */
  function NewYear(year: int): CommonTime
  {
    CommonTime(year, 1, 1, 0, 0, 0.0)
  }

  /** `time_conver_commontime_to_doy` (time_conver.c:226-250). The year is
      copied without two-digit disambiguation and, like the day, stored in an
      `unsigned short`. */
  function CommonToDoy(ct: CommonTime): (doy: Doy)
    ensures doy.year == U16(ct.year)
    ensures ValidClock(ct) ==> ValidTod(doy.tod) && doy.tod.sn as real + doy.tod.tos == ClockSeconds(ct)
    ensures doy.tod.tos == Frac(ct.second)
  {
    ClockSecondsSplit(ct);
    var jdo := JulianValue(CommonToJulian(NewYear(ct.year)));
    var jd := JulianValue(CommonToJulian(ct));
    Doy(U16(ct.year), U16(Trunc(jd - jdo + 1.0)),
        Tod(Trunc(ClockSeconds(ct)), ct.second - Trunc(ct.second) as real))
  }

  /** The Julian day of a day-of-year time (time_conver.c:267-269): that of
      1 January 00:00 plus `day - 1` days and the seconds of the day. */
  function DoyJulianValue(doy: Doy): real
  {
    JulianValue(CommonToJulian(NewYear(doy.year))) + doy.day as real
      + (doy.tod.sn as real + doy.tod.tos) / 86400.0 - 1.0
  }

  /** `time_conver_doy_to_commontime` (time_conver.c:253-283): the date by
      the a/b/c/d/e chain, the clock time straight from the seconds since
      midnight. */
  function DoyToCommon(doy: Doy): (ct: CommonTime)
    ensures ClockSeconds(ct) == doy.tod.sn as real + doy.tod.tos
    ensures 0.0 <= doy.tod.sn as real + doy.tod.tos < 86400.0 ==> ValidClock(ct)
    ensures ValidTod(doy.tod) ==> Frac(ct.second) == doy.tod.tos
  {
    var x := DoyJulianValue(doy);
    var dt := DateFromDayNumber(Trunc(x + 0.5));
    var clock := ClockOfDay(doy.tod);
    CommonTime(dt.year, dt.month, Trunc(dt.day as real + Frac(x + 0.5)), clock.0, clock.1, clock.2)
  }

  /** Hour, minute and second of the clock `t` after midnight
      (time_conver.c:280-282): whole hours, then whole minutes of the rest,
      then what remains. */
  function ClockOfDay(t: Tod): (c: (int, int, real))
    ensures (c.0 * 3600 + c.1 * 60) as real + c.2 == t.sn as real + t.tos
    ensures 0.0 <= t.sn as real + t.tos < 86400.0 ==> 0 <= c.0 < 24 && 0 <= c.1 < 60 && 0.0 <= c.2 < 60.0
    ensures ValidTod(t) ==> Frac(c.2) == t.tos
  {
    SecondsSinceMidnight(t);
    var secs := t.sn as real + t.tos;
    var hour := Trunc(secs / 3600.0);
    var minute := Trunc((secs - (hour * 3600) as real) / 60.0);
    (hour, minute, secs - (hour * 3600) as real - (minute * 60) as real)
  }

  /** Hour and minute taken off the seconds since midnight leave a whole
      number of seconds below 60 plus the fraction. */
  lemma SecondsSinceMidnight(t: Tod)
    ensures ValidTod(t) ==>
              var secs := t.sn as real + t.tos;
              var hour := Trunc(secs / 3600.0);
              var minute := Trunc((secs - (hour * 3600) as real) / 60.0);
              var whole := t.sn - hour * 3600 - minute * 60;
              && 0 <= whole < 60
              && secs - (hour * 3600) as real - (minute * 60) as real == whole as real + t.tos
              && Frac(whole as real + t.tos) == t.tos
              && Frac(secs - (hour * 3600) as real - (minute * 60) as real) == t.tos
  {
    if ValidTod(t) {
      var secs := t.sn as real + t.tos;
      var hour := Trunc(secs / 3600.0);
      assert hour == t.sn / 3600;
      var minute := Trunc((secs - (hour * 3600) as real) / 60.0);
      assert minute == (t.sn % 3600) / 60;
      TruncWholeAndFraction(t.sn - hour * 3600 - minute * 60, t.tos);
    }
  }

  /** 1 January 00:00 of a year from 1 on is the Julian day of its day count. */
  lemma NewYearJulian(year: int)
    requires NormalizeYear(year) >= 1
    ensures JulianValue(CommonToJulian(NewYear(year))) == (DaysBeforeYear(NormalizeYear(year)) + 1) as real + 1721409.5
  {
    DaysBeforeMonthTable(NormalizeYear(year));
    CommonToJulianInstant(NewYear(year));
  }

  /** The day of the year is the month table plus the day of the month: it
      does not depend on the time of day. */
  lemma CommonToDoyDay(ct: CommonTime)
    requires ValidCommon(ct)
    ensures CommonToDoy(ct).day == DaysBeforeMonth(NormalizeYear(ct.year), ct.month) + ct.day
  {
    var dt := DateOf(Normalized(ct));
    DayOfYearBounds(dt);
    NewYearJulian(ct.year);
    CommonToJulianInstant(ct);
    DayOffset(JulianValue(CommonToJulian(ct)), JulianValue(CommonToJulian(NewYear(ct.year))),
              DayCount(dt), DaysBeforeMonth(dt.year, dt.month) + dt.day, ClockSeconds(ct));
  }

  /** The day-of-year arithmetic of line 247: the instant `s` seconds into
      day `n`, less the start of the year `k - 1` days earlier, plus one,
      truncates to `k`. */
  lemma DayOffset(jd: real, jdo: real, n: int, k: int, s: real)
    requires 1 <= k <= 366 && 0.0 <= s < 86400.0
    requires jd == n as real + 1721409.5 + s / 86400.0
    requires jdo == (n - k + 1) as real + 1721409.5
    ensures U16(Trunc(jd - jdo + 1.0)) == k
  {
    assert jd - jdo + 1.0 == k as real + s / 86400.0;
    TruncWholeAndFraction(k, s / 86400.0);
  }

  /** The last day of a year is day 366 in a leap year and 365 otherwise. */
  lemma LastDayOfYear(ct: CommonTime)
    requires ValidClock(ct) && NormalizeYear(ct.year) >= 1 && ct.month == 12 && ct.day == 31
    ensures CommonToDoy(ct).day == DaysInYear(NormalizeYear(ct.year))
    ensures CommonToDoy(ct).day == (if NormalizeYear(ct.year) % 4 == 0 then 366 else 365)
  {
    CommonToDoyDay(ct);
    DaysBeforeMonthTable(NormalizeYear(ct.year));
  }

  /** The header's example: 1 May 2004 is day 122 (2004 is a leap year). */
  lemma HeaderDayOfYear()
    ensures CommonToDoy(CommonTime(2004, 5, 1, 0, 0, 0.0)) == Doy(2004, 122, Tod(0, 0.0))
  {
    CommonToDoyDay(CommonTime(2004, 5, 1, 0, 0, 0.0));
    DaysBeforeMonthTable(2004);
  }

  /** The seconds since midnight split into hour, minute and second exactly
      as a valid clock time was put together. */
  lemma ClockFromSeconds(ct: CommonTime)
    requires ValidClock(ct)
    ensures var t := ClockSeconds(ct);
            && Trunc(t / 3600.0) == ct.hour
            && Trunc((t - (ct.hour * 3600) as real) / 60.0) == ct.minute
  {
  }

  /** The date of a day-of-year time is day `doy.day` of the (disambiguated)
      year, whatever the time of day. */
  lemma DoyToCommonDate(doy: Doy)
    requires NormalizeYear(doy.year) >= 1 && 1 <= doy.day <= DaysInYear(NormalizeYear(doy.year))
    requires 0.0 <= doy.tod.sn as real + doy.tod.tos < 86400.0
    ensures DateOf(DoyToCommon(doy)) == DateOfYearDay(NormalizeYear(doy.year), doy.day)
  {
    var dt := DateOfYearDay(NormalizeYear(doy.year), doy.day);
    NewYearJulian(doy.year);
    var f := (doy.tod.sn as real + doy.tod.tos) / 86400.0;
    assert DoyJulianValue(doy) + 0.5 == (DayCount(dt) + 1721410) as real + f;
    TruncWholeAndFraction(DayCount(dt) + 1721410, f);
    DateOfDoyDayNumber(doy, dt);
  }

  /** A day-of-year time whose day number is that of a date converts to
      that date: the fraction added to the day stays below one. */
  lemma DateOfDoyDayNumber(doy: Doy, dt: Date)
    requires ValidDate(dt) && dt.year >= 1
    requires Trunc(DoyJulianValue(doy) + 0.5) == DayCount(dt) + 1721410
    requires 0.0 <= Frac(DoyJulianValue(doy) + 0.5) < 1.0
    ensures DateOf(DoyToCommon(doy)) == dt
  {
    DateFromDayNumberInverts(dt);
    TruncWholeAndFraction(dt.day, Frac(DoyJulianValue(doy) + 0.5));
  }

  /** The `time_get_frac(JD + 0.5)` term added to the day never changes it:
      the day decoded by the a/b/c/d/e chain is kept, for every instant from
      1 January of year 1 on. */
  lemma DoyFracVanishes(doy: Doy)
    requires DoyJulianValue(doy) >= 1721410.5
    ensures DoyToCommon(doy).day == DateFromDayNumber(Trunc(DoyJulianValue(doy) + 0.5)).day
  {
    var x := DoyJulianValue(doy);
    DateFromDayNumberCounts(Trunc(x + 0.5));
  }

  /** A day-of-year time whose seconds since midnight are those of a valid
      clock time converts back to that clock time. */
  lemma DoyClock(doy: Doy, ct: CommonTime)
    requires ValidClock(ct) && doy.tod.sn as real + doy.tod.tos == ClockSeconds(ct)
    ensures DoyToCommon(doy).hour == ct.hour
    ensures DoyToCommon(doy).minute == ct.minute
    ensures DoyToCommon(doy).second == ct.second
  {
    ClockFromSeconds(ct);
  }

  /** Calendar -> day of year -> calendar returns the (year-disambiguated)
      input exactly, for years below 32768, which the `(short)` cast of the
      year at time_conver.c:279 keeps. */
  lemma CommonDoyRoundTrip(ct: CommonTime)
    requires ValidCommon(ct) && 0 <= ct.year < 0x8000
    ensures DoyToCommon(CommonToDoy(ct)) == Normalized(ct)
  {
    CommonDoyDate(ct);
    DoyClock(CommonToDoy(ct), ct);
  }

  /** The date half of the round trip: the day of the year and the year
      decode back to the date they were taken from. */
  lemma CommonDoyDate(ct: CommonTime)
    requires ValidCommon(ct) && 0 <= ct.year < 0x8000
    ensures DateOf(DoyToCommon(CommonToDoy(ct))) == DateOf(Normalized(ct))
  {
    CommonToDoyDay(ct);
    CalendarOfDoy(CommonToDoy(ct), DateOf(Normalized(ct)));
  }

  /** A day-of-year time whose year and day are those of a date converts
      back to that date. */
  lemma CalendarOfDoy(doy: Doy, dt: Date)
    requires ValidDate(dt) && dt.year >= 1 && NormalizeYear(doy.year) == dt.year
    requires doy.day == DaysBeforeMonth(dt.year, dt.month) + dt.day
    requires 0.0 <= doy.tod.sn as real + doy.tod.tos < 86400.0
    ensures DateOf(DoyToCommon(doy)) == dt
  {
    DayOfYearBounds(dt);
    DoyToCommonDate(doy);
    SameYearDayInjective(DateOfYearDay(dt.year, doy.day), dt);
  }

  /** Day of year -> calendar -> day of year is the identity for four-digit
      years below 32768, which the `(short)` cast of the year at
      time_conver.c:279 keeps. */
  lemma DoyCommonRoundTrip(doy: Doy)
    requires 1900 <= doy.year < 0x8000 && 1 <= doy.day <= DaysInYear(doy.year) && ValidTod(doy.tod)
    ensures CommonToDoy(DoyToCommon(doy)) == doy
  {
    DoyCommonDay(doy);
    DoyCommonTod(doy);
  }

  /** The year and day half of the round trip. */
  lemma DoyCommonDay(doy: Doy)
    requires 1900 <= doy.year < 0x8000 && 1 <= doy.day <= DaysInYear(doy.year) && ValidTod(doy.tod)
    ensures CommonToDoy(DoyToCommon(doy)).year == doy.year
    ensures CommonToDoy(DoyToCommon(doy)).day == doy.day
  {
    DoyToCommonDate(doy);
    DoyOfCalendarDate(DoyToCommon(doy), DateOfYearDay(doy.year, doy.day));
  }

  /** A calendar time on a date of a four-digit year has that year and the
      date's ordinal within it as its day of year. */
  lemma DoyOfCalendarDate(ct: CommonTime, dt: Date)
    requires ValidClock(ct) && DateOf(ct) == dt && ValidDate(dt) && 1900 <= dt.year < 0x8000
    ensures CommonToDoy(ct).year == dt.year
    ensures CommonToDoy(ct).day == DaysBeforeMonth(dt.year, dt.month) + dt.day
  {
    CommonToDoyDay(ct);
  }

  /** The time-of-day half: the seconds since midnight and their fraction
      come back whatever the date. */
  lemma DoyCommonTod(doy: Doy)
    requires ValidTod(doy.tod)
    ensures CommonToDoy(DoyToCommon(doy)).tod == doy.tod
  {
  }
}

=== FILE: gps.dfy ===
/** Julian Day <-> GPS time: `time_conver_julianday_to_gpstime` and
    `time_conver_gpstime_to_julianday` (time_conver.c:181-205).

    GPS time counts weeks and seconds of the week from 1980-01-06 00:00,
    which is JD 2444244.5. A Julian day runs from noon to noon, so Julian day
    2444244 + 7w starts on a Saturday at 12:00. */
module Gps {
  import opened CNumeric
  import opened TimeTypes

  /** `time_conver_julianday_to_gpstime` as written (time_conver.c:181-193).
      The day of the week is taken from the noon-based day number, so from
      Saturday 12:00 to midnight the seconds of the week come out negative. */
  function JulianToGpsAsWritten(jd: JulianDay): (g: GpsTime)
    ensures g.tow.tos == jd.tod.tos
    ensures ValidTod(jd.tod) && jd.day >= 2444244 ==> -43200 <= g.tow.sn < 561600
  {
    GpsTime(Trunc((JulianValue(jd) - 2444244.5) / 7.0),
            Tod(Trunc((CMod(jd.day - 2444244, 7) as real + (jd.tod.sn as real / 86400.0 - 0.5)) * 86400.0),
                jd.tod.tos))
  }

  /** The conversion with the Saturday-afternoon case corrected: a negative
      second of the week is moved up by one week, which is where the instant
      lies within week `wn`. */
  function JulianToGps(jd: JulianDay): (g: GpsTime)
    ensures g.tow.tos == jd.tod.tos
    ensures ValidTod(jd.tod) && jd.day >= 2444244 ==> 0 <= g.tow.sn < 604800
  {
    var w := JulianToGpsAsWritten(jd);
    if w.tow.sn < 0 then GpsTime(w.wn, Tod(w.tow.sn + 604800, w.tow.tos)) else w
  }

  /** `time_conver_gpstime_to_julianday` (time_conver.c:196-205). */
  function GpsToJulian(g: GpsTime): (jd: JulianDay)
    ensures jd.tod.tos == g.tow.tos
    ensures -43200 <= g.tow.sn ==> 0 <= jd.tod.sn < 86400
  {
    JulianDay(Trunc((g.wn * 7) as real + g.tow.sn as real / 86400.0 + 2444244.5),
              Tod(CMod(g.tow.sn + 43200, 86400), g.tow.tos))
  }

  /** Whole seconds from the GPS epoch (JD 2444244.5) to a Julian day. */
  function JulianEpochSeconds(jd: JulianDay): int
  {
    (jd.day - 2444244) * 86400 + jd.tod.sn - 43200
  }

  /** The same second of the week, one week number lower. */
  function PreviousWeek(g: GpsTime): GpsTime
  {
    GpsTime(g.wn - 1, g.tow)
  }

  /** The second of the week 604800 s short, in the same week number. */
  function WeekShort(g: GpsTime): GpsTime
  {
    GpsTime(g.wn, Tod(g.tow.sn - 604800, g.tow.tos))
  }

  /** Whole seconds from the GPS epoch to a GPS time. */
  function GpsEpochSeconds(g: GpsTime): int
  {
    g.wn * 604800 + g.tow.sn
  }

  /** A GPS time on or after the epoch, its seconds within one week. */
  predicate ValidGps(g: GpsTime)
  {
    0 <= g.wn && 0 <= g.tow.sn < 604800 && 0.0 <= g.tow.tos < 1.0
  }

  /** What the written formula computes after the epoch: the right week,
      and the right second of the week except from Saturday 12:00 on, where
      it is one week (604800 s) short and so negative. */
  lemma AsWrittenWeekAndSecond(jd: JulianDay)
    requires ValidTod(jd.tod) && JulianEpochSeconds(jd) >= 0
    ensures var g := JulianToGpsAsWritten(jd);
            var e := JulianEpochSeconds(jd);
            && g.wn == e / 604800
            && g.tow.sn == (if e % 604800 >= 561600 then e % 604800 - 604800 else e % 604800)
  {
    var e := JulianEpochSeconds(jd);
    var k := jd.day - 2444244;
    assert k >= 0;
    AsWrittenSecond(jd);
    AsWrittenWeek(jd);
    var t := (k % 7) * 86400 + jd.tod.sn - 43200;
    var q := k / 7;
    assert e == 604800 * q + t;
    if t >= 0 {
      assert e / 604800 == q && e % 604800 == t;
    } else {
      assert e == 604800 * (q - 1) + (t + 604800);
      assert e / 604800 == q - 1 && e % 604800 == t + 604800;
    }
  }

  /** The written second of the week: whole days since the epoch modulo 7,
      plus the seconds since noon, less half a day. */
  lemma AsWrittenSecond(jd: JulianDay)
    requires jd.day >= 2444244
    ensures JulianToGpsAsWritten(jd).tow.sn == ((jd.day - 2444244) % 7) * 86400 + jd.tod.sn - 43200
  {
    var k, sn := jd.day - 2444244, jd.tod.sn;
    assert CMod(k, 7) == k % 7;
    var t := (k % 7) * 86400 + sn - 43200;
    assert (CMod(k, 7) as real + (sn as real / 86400.0 - 0.5)) * 86400.0 == t as real;
  }

  /** The written week number: the whole weeks in the seconds since the
      epoch. */
  lemma AsWrittenWeek(jd: JulianDay)
    requires ValidTod(jd.tod) && JulianEpochSeconds(jd) >= 0
    ensures JulianToGpsAsWritten(jd).wn == JulianEpochSeconds(jd) / 604800
  {
    var e := JulianEpochSeconds(jd);
    var x := (JulianValue(jd) - 2444244.5) / 7.0;
    assert x == (e as real + jd.tod.tos) / 604800.0;
    var w := e / 604800;
    assert e == 604800 * w + e % 604800;
    assert w as real <= x < w as real + 1.0;
  }

  /** A normalised Julian day is on or after the GPS epoch exactly when its
      value is at least 2444244.5. */
  lemma EpochSecondsSign(jd: JulianDay)
    requires ValidTod(jd.tod)
    ensures JulianEpochSeconds(jd) >= 0 <==> JulianValue(jd) >= 2444244.5
  {
    var e := JulianEpochSeconds(jd);
    assert JulianValue(jd) == 2444244.5 + (e as real + jd.tod.tos) / 86400.0;
  }

  /** After the epoch the corrected conversion gives the week and second of
      the week of the same instant. */
  lemma JulianToGpsSameInstant(jd: JulianDay)
    requires ValidTod(jd.tod) && JulianEpochSeconds(jd) >= 0
    ensures ValidGps(JulianToGps(jd))
    ensures GpsEpochSeconds(JulianToGps(jd)) == JulianEpochSeconds(jd)
  {
    AsWrittenWeekAndSecond(jd);
  }

  /** GPS time to Julian Day keeps the instant and yields seconds since noon
      within one day. */
  lemma GpsToJulianSameInstant(g: GpsTime)
    requires 0 <= g.wn && -43200 <= g.tow.sn
    ensures ValidTod(GpsToJulian(g).tod) == (0.0 <= g.tow.tos < 1.0)
    ensures JulianEpochSeconds(GpsToJulian(g)) == GpsEpochSeconds(g)
  {
    var s := g.wn * 604800 + g.tow.sn + 43200;
    assert (g.wn * 7) as real + g.tow.sn as real / 86400.0 + 2444244.5 == 2444244.0 + s as real / 86400.0;
    assert s == 86400 * (s / 86400) + s % 86400;
    assert Trunc(2444244.0 + s as real / 86400.0) == 2444244 + s / 86400;
    assert CMod(g.tow.sn + 43200, 86400) == s % 86400;
  }

  /** A week and a second of that week name one instant. */
  lemma GpsSecondsDetermine(g: GpsTime, h: GpsTime)
    requires 0 <= g.tow.sn < 604800 && 0 <= h.tow.sn < 604800
    requires GpsEpochSeconds(g) == GpsEpochSeconds(h) && g.tow.tos == h.tow.tos
    ensures g == h
  {
  }

  /** A Julian day and its seconds since noon name one instant. */
  lemma JulianSecondsDetermine(a: JulianDay, b: JulianDay)
    requires 0 <= a.tod.sn < 86400 && 0 <= b.tod.sn < 86400
    requires JulianEpochSeconds(a) == JulianEpochSeconds(b) && a.tod.tos == b.tod.tos
    ensures a == b
  {
  }

  /** GPS -> Julian Day -> GPS through the formula as written: exact up to
      Saturday 12:00; from then to the end of the week the second of the week
      comes back 604800 short. */
  lemma GpsRoundTripAsWritten(g: GpsTime)
    requires ValidGps(g)
    ensures g.tow.sn < 561600 ==> JulianToGpsAsWritten(GpsToJulian(g)) == g
    ensures g.tow.sn >= 561600 ==>
              JulianToGpsAsWritten(GpsToJulian(g)) == WeekShort(g)
  {
    var jd := GpsToJulian(g);
    GpsToJulianSameInstant(g);
    AsWrittenWeekAndSecond(jd);
    var e := GpsEpochSeconds(g);
    assert e / 604800 == g.wn && e % 604800 == g.tow.sn;
  }

  /** GPS -> Julian Day -> GPS is the identity with the corrected formula. */
  lemma GpsRoundTrip(g: GpsTime)
    requires ValidGps(g)
    ensures JulianToGps(GpsToJulian(g)) == g
  {
    var jd := GpsToJulian(g);
    GpsToJulianSameInstant(g);
    JulianToGpsSameInstant(jd);
    GpsSecondsDetermine(JulianToGps(jd), g);
  }

  /** Julian Day -> GPS -> Julian Day is the identity for normalised Julian
      days from the GPS epoch on (corrected formula). */
  lemma JulianGpsRoundTrip(jd: JulianDay)
    requires ValidTod(jd.tod) && JulianEpochSeconds(jd) >= 0
    ensures GpsToJulian(JulianToGps(jd)) == jd
  {
    var g := JulianToGps(jd);
    JulianToGpsSameInstant(jd);
    GpsToJulianSameInstant(g);
    JulianSecondsDetermine(GpsToJulian(g), jd);
  }

  /** The written and the corrected conversion agree up to Saturday 12:00;
      from then to the end of the week the written one is 604800 s short. */
  lemma AsWrittenVersusCorrected(jd: JulianDay)
    requires ValidTod(jd.tod) && jd.day >= 2444244
    ensures var g := JulianToGps(jd);
            && (g.tow.sn < 561600 ==> JulianToGpsAsWritten(jd) == g)
            && (g.tow.sn >= 561600 ==> JulianToGpsAsWritten(jd) == WeekShort(g))
  {
  }

  /** A second of the week 604800 short names the same instant as that
      second of the previous week. */
  lemma WeekShortIsWeekEarlier(g: GpsTime)
    requires 561600 <= g.tow.sn
    ensures GpsToJulian(WeekShort(g)) == GpsToJulian(PreviousWeek(g))
  {
    assert (g.wn * 7) as real + (g.tow.sn - 604800) as real / 86400.0
        == ((g.wn - 1) * 7) as real + g.tow.sn as real / 86400.0;
    assert CMod(g.tow.sn - 604800 + 43200, 86400) == CMod(g.tow.sn + 43200, 86400);
  }

  /** One GPS week earlier is seven Julian days earlier, at the same time of day. */
  lemma GpsWeekEarlier(g: GpsTime)
    requires 0 <= g.wn && 0 <= g.tow.sn
    ensures GpsToJulian(PreviousWeek(g)) == WeekBefore(GpsToJulian(g))
  {
    var x := (g.wn * 7) as real + g.tow.sn as real / 86400.0 + 2444244.5;
    assert ((g.wn - 1) * 7) as real + g.tow.sn as real / 86400.0 + 2444244.5 == x - 7.0;
    assert Trunc(x - 7.0) == Trunc(x) - 7;
  }

  /** From Saturday 12:00 on, the written conversion names the previous
      week's second: back in Julian days, seven days early. */
  lemma AsWrittenWeekEarly(jd: JulianDay)
    requires ValidTod(jd.tod) && JulianEpochSeconds(jd) >= 0 && JulianToGps(jd).tow.sn >= 561600
    ensures GpsToJulian(JulianToGpsAsWritten(jd)) == GpsToJulian(PreviousWeek(JulianToGps(jd)))
    ensures GpsToJulian(JulianToGpsAsWritten(jd)) == WeekBefore(jd)
  {
    var g := JulianToGps(jd);
    JulianToGpsSameInstant(jd);
    AsWrittenVersusCorrected(jd);
    JulianGpsRoundTrip(jd);
    WeekShortIsWeekEarlier(g);
    GpsWeekEarlier(g);
  }

  /** The epoch: JD 2444244.5 is week 0, second 0. */
  lemma GpsEpoch()
    ensures JulianToGpsAsWritten(JulianDay(2444244, Tod(43200, 0.0))) == GpsTime(0, Tod(0, 0.0))
    ensures GpsToJulian(GpsTime(0, Tod(0, 0.0))) == JulianDay(2444244, Tod(43200, 0.0))
  {
    AsWrittenWeekAndSecond(JulianDay(2444244, Tod(43200, 0.0)));
    GpsToJulianSameInstant(GpsTime(0, Tod(0, 0.0)));
  }

  /** Saturday 1980-01-12 12:00 (JD 2444251.0) is second 561600 of week 0,
      but the written formula gives second -43200 of week 0, an instant one
      week earlier that converts back to JD 2444244.0. */
  lemma SaturdayNoonCounterexample()
    ensures var jd := JulianDay(2444251, Tod(0, 0.0));
            && JulianEpochSeconds(jd) == 561600
            && JulianToGpsAsWritten(jd) == GpsTime(0, Tod(-43200, 0.0))
            && GpsToJulian(JulianToGpsAsWritten(jd)) == JulianDay(2444244, Tod(0, 0.0))
            && JulianToGps(jd) == GpsTime(0, Tod(561600, 0.0))
  {
    var jd := JulianDay(2444251, Tod(0, 0.0));
    AsWrittenWeekAndSecond(jd);
    GpsToJulianSameInstant(GpsTime(0, Tod(-43200, 0.0)));
  }
}

=== FILE: julian.dfy ===
/** Calendar time <-> Julian Day: `time_conver_commontime_to_julianday` and
    `time_conver_julianday_to_commontime` (time_conver.c:128-178).

    The forward formula is JD = INT(365.25 y) + INT(30.6001 (m + 1)) + D
    + UT/24 + 1720981.5 with January and February counted as months 13 and 14
    of the previous year; the Julian day starts at noon, so the seconds of the
    day are counted from 12:00. The inverse is the a/b/c/d/e decomposition. */
module Julian {
  import opened CNumeric
  import opened TimeTypes
  import opened CalendarSpec

  /** Two-digit year disambiguation (time_conver.c:135-141): below 80 means
      20xx, any other year below 1900 gets 1900 added, 1900 on is kept. */
  function NormalizeYear(year: int): (y: int)
    ensures 1900 <= year ==> y == year
    ensures 0 <= year < 100 ==> 1980 <= y < 2080 && y % 100 == year
    ensures 100 <= year < 1900 ==> y == year + 1900
    ensures -100 <= year ==> 1900 <= y
  {
    if year < 1900 then (if year < 80 then year + 2000 else year + 1900) else year
  }

  /** The calendar time with its year disambiguated. */
  function Normalized(ct: CommonTime): CommonTime
  {
    ct.(year := NormalizeYear(ct.year))
  }

  /** A calendar time the conversions handle as a real date: a valid clock
      time and, after year disambiguation, a valid date from year 1 on. */
  predicate ValidCommon(ct: CommonTime)
  {
    ValidClock(ct) && NormalizeYear(ct.year) >= 1 && ValidDate(DateOf(Normalized(ct)))
  }

  /** The integer calendar terms of line 150: `(int)(365.25 * y) +
      (int)(30.6001 * (m + 1)) + day`, January and February being months 13
      and 14 of the previous year. */
  function CalendarTerms(year: int, month: int, day: int): int
  {
    var y := if month <= 2 then year - 1 else year;
    var m := if month <= 2 then month + 12 else month;
    Trunc(365.25 * y as real) + Trunc(30.6001 * (m + 1) as real) + day
  }

  /** `time_conver_commontime_to_julianday` (time_conver.c:128-154). */
  function CommonToJulian(ct: CommonTime): (jd: JulianDay)
    ensures ValidClock(ct) ==> ValidTod(jd.tod)
    ensures 0.0 <= ct.second ==> jd.tod.tos + (jd.tod.sn - CMod(ct.hour + 12, 24) * 3600 - ct.minute * 60) as real == ct.second
    ensures ValidClock(ct) ==> jd.tod.sn == CMod(Trunc(ClockSeconds(ct)) + 43200, 86400)
  {
    ClockSecondsSplit(ct);
    var ut := ct.hour as real + ct.minute as real / 60.0 + ct.second / 3600.0;
    JulianDay(CalendarTerms(NormalizeYear(ct.year), ct.month, ct.day) + Trunc(ut / 24.0 + 1720981.5),
              Tod(CMod(ct.hour + 12, 24) * 3600 + ct.minute * 60 + Trunc(ct.second),
                  ct.second - Trunc(ct.second) as real))
  }

  /** The a/b/c/d/e chain (time_conver.c:167-174, repeated at 272-279): the
      calendar date of the Julian day number `a`. */
  function DateFromDayNumber(a: int): Date
  {
    var b := a + 1537;
    var c := Trunc((b as real - 122.1) / 365.25);
    var d := Trunc(365.25 * c as real);
    var e := Trunc((b - d) as real / 30.6001);
    var month := e - 1 - 12 * CDiv(e, 14);
    Date(c - 4715 - CDiv(7 + month, 10), month, b - d - Trunc(30.6001 * e as real))
  }

  /** `time_conver_julianday_to_commontime` (time_conver.c:157-178): the date
      comes from rounding the Julian day to the nearest integer, the clock
      time from the seconds since noon. */
  function JulianToCommon(jd: JulianDay): (ct: CommonTime)
    ensures ValidTod(jd.tod) ==> ValidClock(ct)
    ensures ValidTod(jd.tod) ==> ClockSeconds(ct) == (CMod(jd.tod.sn + 43200, 86400)) as real + jd.tod.tos
    ensures ValidTod(jd.tod) ==> Frac(ct.second) == jd.tod.tos
  {
    var dt := DateFromDayNumber(Trunc(JulianValue(jd) + 0.5));
    SecondsSinceNoon(jd.tod.sn);
    TruncWholeAndFraction(CMod(jd.tod.sn, 60), jd.tod.tos);
    CommonTime(dt.year, dt.month, dt.day,
               CMod(CDiv(jd.tod.sn, 3600) + 12, 24),
               CDiv(CMod(jd.tod.sn, 3600), 60),
               CMod(jd.tod.sn, 60) as real + jd.tod.tos)
  }

  // ---------------------------------------------------------------------
  // The truncated terms, computed

  /** For a valid clock time the whole seconds since midnight are the whole
      seconds of the clock fields; counted from noon instead, they are the
      seconds since midnight shifted by twelve hours. */
  lemma ClockSecondsSplit(ct: CommonTime)
    ensures ValidClock(ct) ==>
              && Trunc(ClockSeconds(ct)) == ct.hour * 3600 + ct.minute * 60 + Trunc(ct.second)
              && 0 <= Trunc(ClockSeconds(ct)) < 86400
              && CMod(ct.hour + 12, 24) * 3600 + ct.minute * 60 + Trunc(ct.second) == CMod(Trunc(ClockSeconds(ct)) + 43200, 86400)
  {
    if ValidClock(ct) {
      var f := ct.second - Trunc(ct.second) as real;
      assert ClockSeconds(ct) == (ct.hour * 3600 + ct.minute * 60 + Trunc(ct.second)) as real + f;
      var t := ct.hour * 3600 + ct.minute * 60 + Trunc(ct.second);
      TruncWholeAndFraction(t, f);
      if ct.hour < 12 {
        assert CMod(ct.hour + 12, 24) == ct.hour + 12;
        assert CMod(t + 43200, 86400) == t + 43200;
      } else {
        assert CMod(ct.hour + 12, 24) == ct.hour - 12;
        assert CMod(t + 43200, 86400) == t - 43200;
      }
    }
  }

  /** Hour, minute and second read off the seconds since noon: the hour is
      shifted back by twelve and the three add up to the seconds since
      midnight. */
  lemma SecondsSinceNoon(sn: int)
    ensures 0 <= sn < 86400 ==>
      var h := CMod(CDiv(sn, 3600) + 12, 24);
      var mi := CDiv(CMod(sn, 3600), 60);
      && 0 <= h < 24 && 0 <= mi < 60 && 0 <= CMod(sn, 60) < 60
      && h * 3600 + mi * 60 + CMod(sn, 60) == CMod(sn + 43200, 86400)
      && h == (if sn >= 43200 then sn / 3600 - 12 else sn / 3600 + 12)
  {
    if 0 <= sn < 86400 {
      var q, r := sn / 3600, sn % 3600;
      ClockDigits(sn);
      assert CDiv(sn, 3600) == q && CMod(sn, 3600) == r;
      assert CDiv(r, 60) == r / 60 && CMod(sn, 60) == r % 60;
      if sn >= 43200 {
        assert CMod(q + 12, 24) == q - 12;
        assert CMod(sn + 43200, 86400) == sn - 43200;
      } else {
        assert CMod(q + 12, 24) == q + 12;
        assert CMod(sn + 43200, 86400) == sn + 43200;
      }
    }
  }

  /** Hours, minutes and seconds of a second count below one day. */
  lemma ClockDigits(sn: int)
    requires 0 <= sn < 86400
    ensures var q, r := sn / 3600, sn % 3600;
            && 0 <= q < 24 && 0 <= r < 3600 && sn == 3600 * q + r
            && 0 <= r / 60 < 60 && r == 60 * (r / 60) + r % 60 && sn % 60 == r % 60
            && (sn >= 43200 <==> q >= 12)
  {
    var q, r := sn / 3600, sn % 3600;
    assert sn == 3600 * q + r;
    assert sn == 60 * (60 * q + r / 60) + r % 60;
  }

  /** `(int)(365.25 * c)` is 365 days a year plus one every fourth year. */
  lemma YearTerm(c: int)
    requires c >= 0
    ensures Trunc(365.25 * c as real) == 365 * c + c / 4
    ensures 365.25 * c as real == (365 * c + c / 4) as real + (c % 4) as real / 4.0
  {
    var q, r := c / 4, c % 4;
    assert c == 4 * q + r;
    assert 365.25 * c as real == (365 * c + q) as real + r as real / 4.0;
  }

  /** The month term `(int)(30.6001 * k)` for `k` from 4 (March) to 16,
      as a table. */
  function MonthTermAt(k: int): int
  {
    if k <= 4 then 122 else if k == 5 then 153 else if k == 6 then 183
    else if k == 7 then 214 else if k == 8 then 244 else if k == 9 then 275
    else if k == 10 then 306 else if k == 11 then 336 else if k == 12 then 367
    else if k == 13 then 397 else if k == 14 then 428 else if k == 15 then 459
    else 489
  }

  /** The table holds the truncated products. */
  lemma MonthTermValue(k: int)
    requires 4 <= k <= 16
    ensures Trunc(30.6001 * k as real) == MonthTermAt(k)
  {
  }

  /** Decoding `e = (int)(x / 30.6001)` recovers `k` for every `x` above the
      month term of `k` up to that of `k + 1`. */
  lemma MonthTermDecodes(k: int, x: int)
    requires 4 <= k <= 15 && MonthTermAt(k) < x <= MonthTermAt(k + 1)
    ensures Trunc(x as real / 30.6001) == k
  {
  }

  /** The month term `(int)(30.6001 * (m + 1))` of each month, related to the
      month table, and the decoding `e = (int)(x / 30.6001)` that undoes it
      for every day of that month. */
  lemma MonthTerm(y: int, m: int, day: int)
    requires 1 <= m <= 12 && 1 <= day <= DaysInMonth(y, m)
    ensures var k := if m <= 2 then m + 13 else m + 1;
            var g := Trunc(30.6001 * k as real);
            && g == DaysBeforeMonth(y, m) + (if m <= 2 then 428 else 428 - DaysInYear(y))
            && Trunc((g + day) as real / 30.6001) == k
            && g + day <= (if m == 2 then 459 + DaysInMonth(y, 2) else 459)
  {
    var k := if m <= 2 then m + 13 else m + 1;
    MonthTermOfMonth(y, m);
    MonthTermValue(k);
    MonthTermDecodes(k, MonthTermAt(k) + day);
  }

  /** The table against the month lengths: the term of month `m` is the days
      before it shifted by 428 (less a year from March on), and its days fit
      below the next term. */
  lemma MonthTermOfMonth(y: int, m: int)
    requires 1 <= m <= 12
    ensures var k := if m <= 2 then m + 13 else m + 1;
            && MonthTermAt(k) == DaysBeforeMonth(y, m) + (if m <= 2 then 428 else 428 - DaysInYear(y))
            && MonthTermAt(k) + DaysInMonth(y, m) <= MonthTermAt(k + 1)
            && MonthTermAt(k) + DaysInMonth(y, m) <= (if m == 2 then 459 + DaysInMonth(y, 2) else 459)
  {
    DaysBeforeMonthTable(y);
    if IsLeapYear(y) {
      assert DaysInYear(y) == 366;
    } else {
      assert DaysInYear(y) == 365;
    }
  }

  /** The calendar terms of a valid date are its day count shifted by 428. */
  lemma CalendarTermsCount(dt: Date)
    requires ValidDate(dt) && dt.year >= 1
    ensures CalendarTerms(dt.year, dt.month, dt.day) == DayCount(dt) + 428
  {
    var y, m := dt.year, dt.month;
    MonthTerm(y, m, dt.day);
    DaysBeforeMonthTable(y);
    if m <= 2 {
      YearTerm(y - 1);
    } else {
      YearTerm(y);
      YearStep(y);
    }
  }

  /** The a/b/c/d/e chain inverts the day count: the Julian day number whose
      noon-to-noon span holds 12:00 of a valid date decodes to that date. */
  lemma DateFromDayNumberInverts(dt: Date)
    requires ValidDate(dt) && dt.year >= 1
    ensures DateFromDayNumber(DayCount(dt) + 1721410) == dt
  {
    var y, m := dt.year, dt.month;
    var c := if m <= 2 then y + 4715 else y + 4716;
    var k := if m <= 2 then m + 13 else m + 1;
    DayNumberSplit(dt);
    MonthAndYearOfTerms(y, m);
    DecodeTerms(DayCount(dt) + 1721410, c, k, dt);
  }

  /** The a/b/c/d/e chain on a day number built from a year count `c`, a
      month index `k` (4 = March ... 15 = February) and a day within that
      month: it returns exactly those three. */
  lemma DecodeTerms(a: int, c: int, k: int, dt: Date)
    requires a >= 0 && c >= 0 && 4 <= k <= 15 && 1 <= dt.day
    requires a + 1537 == 365 * c + c / 4 + MonthTermAt(k) + dt.day
    requires MonthTermAt(k) + dt.day <= MonthTermAt(k + 1)
    requires var r := MonthTermAt(k) + dt.day; 123 <= r <= 487 || (r == 488 && c % 4 == 3)
    requires k - 1 - 12 * CDiv(k, 14) == dt.month && c - 4715 - CDiv(7 + dt.month, 10) == dt.year
    ensures DateFromDayNumber(a) == dt
  {
    var r := MonthTermAt(k) + dt.day;
    YearDecodes(a + 1537, c, r);
    YearTerm(c);
    MonthTermDecodes(k, r);
    MonthTermValue(k);
    DateFromTerms(a, c, 365 * c + c / 4, k, MonthTermAt(k));
  }

  /** The a/b/c/d/e chain with its four truncated terms given. */
  lemma DateFromTerms(a: int, c: int, d: int, e: int, t: int)
    requires a >= 0 && c >= 0 && a + 1537 >= d && e >= 0
    requires Trunc(((a + 1537) as real - 122.1) / 365.25) == c
    requires Trunc(365.25 * c as real) == d
    requires Trunc((a + 1537 - d) as real / 30.6001) == e
    requires Trunc(30.6001 * e as real) == t
    ensures var month := e - 1 - 12 * CDiv(e, 14);
            DateFromDayNumber(a) == Date(c - 4715 - CDiv(7 + month, 10), month, a + 1537 - d - t)
  {
  }

  /** The month and year read back from `e` and `c`. */
  lemma MonthAndYearOfTerms(y: int, m: int)
    requires 1 <= m <= 12
    ensures var c := if m <= 2 then y + 4715 else y + 4716;
            var k := if m <= 2 then m + 13 else m + 1;
            && k - 1 - 12 * CDiv(k, 14) == m
            && c - 4715 - CDiv(7 + m, 10) == y
  {
  }

  /** `b = a + 1537` for the day number `a` of a valid date splits into the
      year term of `c` (the year counted from 4716 BC, March being its first
      month) and the month term plus the day. */
  lemma DayNumberSplit(dt: Date)
    requires ValidDate(dt) && dt.year >= 1
    ensures var y, m := dt.year, dt.month;
            var c := if m <= 2 then y + 4715 else y + 4716;
            var k := if m <= 2 then m + 13 else m + 1;
            var r := MonthTermAt(k) + dt.day;
            && DayCount(dt) + 1721410 + 1537 == 365 * c + c / 4 + r
            && (123 <= r <= 487 || (r == 488 && c % 4 == 3))
            && r <= MonthTermAt(k + 1)
  {
    var y, m := dt.year, dt.month;
    MonthTermOfMonth(y, m);
    YearStep(y);
    assert m == 2 && IsLeapYear(y) ==> (y + 4715) % 4 == 3;
  }

  /** Decoding `c = (int)((b - 122.1) / 365.25)` recovers the year count
      `c` from `b` = its year term plus a month-and-day offset `r` between
      1 March (123) and 28 February (487) of the year after; 29 February
      (488) only when `c % 4 == 3`, the leap years. */
  lemma YearDecodes(b: int, c: int, r: int)
    requires c >= 0 && b == 365 * c + c / 4 + r
    requires 123 <= r <= 487 || (r == 488 && c % 4 == 3)
    ensures Trunc((b as real - 122.1) / 365.25) == c
  {
    YearTerm(c);
    YearTerm(c + 1);
    var z := (b as real - 122.1) / 365.25;
    assert c as real <= z < c as real + 1.0;
  }

  /** Every Julian day number from that of 1 January of year 1 on decodes to
      the valid date with that day count. */
  lemma DateFromDayNumberCounts(a: int)
    requires a >= 1721411
    ensures DateFromDayNumber(a) == DateOfDayCount(a - 1721410)
  {
    var dt := DateOfDayCount(a - 1721410);
    if dt.year < 1 {
      YearsApart(dt.year, 1);
      DaysBeforeMonthTable(dt.year);
      assert false;
    }
    DateFromDayNumberInverts(dt);
  }

  // ---------------------------------------------------------------------
  // Properties of the conversions

  /** What the forward conversion computes: the Julian day of civil midnight
      of the date (`DayCount` + 1721409.5) plus the time of day, with the
      integer day rolling over at noon. Together with `ValidTod` this fixes
      the result. */
  lemma CommonToJulianInstant(ct: CommonTime)
    requires ValidCommon(ct)
    ensures var jd := CommonToJulian(ct);
            var n := DayCount(DateOf(Normalized(ct)));
            && jd.day == n + 1721409 + (if ct.hour >= 12 then 1 else 0)
            && JulianValue(jd) == n as real + 1721409.5 + ClockSeconds(ct) / 86400.0
  {
    CalendarTermsCount(DateOf(Normalized(ct)));
    UniversalTimeTerm(ct);
    NoonSeconds(ct);
  }

  /** The seconds of the Julian day of a valid clock time: the clock seconds
      counted from noon instead of midnight. */
  lemma NoonSeconds(ct: CommonTime)
    requires ValidClock(ct)
    ensures var t := CommonToJulian(ct).tod;
            t.sn as real + t.tos == ClockSeconds(ct) + (if ct.hour >= 12 then -43200.0 else 43200.0)
  {
    var t := CommonToJulian(ct).tod;
    assert t.sn as real + t.tos == (CMod(ct.hour + 12, 24) * 3600 + ct.minute * 60) as real + ct.second;
    if ct.hour >= 12 {
      assert CMod(ct.hour + 12, 24) == ct.hour - 12;
    } else {
      assert CMod(ct.hour + 12, 24) == ct.hour + 12;
    }
  }

  /** The universal-time term `(int)(UT / 24 + 1720981.5)` of a valid clock
      time is 1720982 from noon on and 1720981 before, UT being the clock
      seconds in hours. */
  lemma UniversalTimeTerm(ct: CommonTime)
    requires ValidClock(ct)
    ensures var ut := ct.hour as real + ct.minute as real / 60.0 + ct.second / 3600.0;
            && ut * 3600.0 == ClockSeconds(ct)
            && Trunc(ut / 24.0 + 1720981.5) == (if ct.hour >= 12 then 1720982 else 1720981)
  {
    var ut := ct.hour as real + ct.minute as real / 60.0 + ct.second / 3600.0;
    assert ut * 3600.0 == ClockSeconds(ct);
    if ct.hour >= 12 {
      assert 1720982.0 <= ut / 24.0 + 1720981.5 < 1720983.0;
    } else {
      assert 1720981.0 <= ut / 24.0 + 1720981.5 < 1720982.0;
    }
  }

  /** Disambiguating the year first changes nothing for years from 0 on:
      disambiguation is idempotent there. */
  lemma NormalizedSameJulian(ct: CommonTime)
    requires 0 <= ct.year
    ensures NormalizeYear(NormalizeYear(ct.year)) == NormalizeYear(ct.year)
    ensures CommonToJulian(Normalized(ct)) == CommonToJulian(ct)
  {
  }

  /** The Julian day starts at noon: on one date, any time from 12:00 on has
      a day number one larger than any time before 12:00. */
  lemma NoonStartsNewDay(am: CommonTime, pm: CommonTime)
    requires ValidClock(am) && ValidClock(pm) && DateOf(am) == DateOf(pm)
    requires am.hour < 12 <= pm.hour
    ensures CommonToJulian(pm).day == CommonToJulian(am).day + 1
  {
    var utAm := am.hour as real + am.minute as real / 60.0 + am.second / 3600.0;
    var utPm := pm.hour as real + pm.minute as real / 60.0 + pm.second / 3600.0;
    assert Trunc(utAm / 24.0 + 1720981.5) == 1720981;
    assert Trunc(utPm / 24.0 + 1720981.5) == 1720982;
  }

  /** The fixed points of the file header: 1979-10-01 00:00 is JD 2444147.5,
      and 2004-02-29 12:30:15.25 comes back unchanged. */
  lemma HeaderFixedPoints()
    ensures CommonToJulian(CommonTime(1979, 10, 1, 0, 0, 0.0)) == JulianDay(2444147, Tod(43200, 0.0))
    ensures JulianToCommon(JulianDay(2444147, Tod(43200, 0.0))) == CommonTime(1979, 10, 1, 0, 0, 0.0)
    ensures JulianToCommon(CommonToJulian(CommonTime(2004, 2, 29, 12, 30, 15.25))) == CommonTime(2004, 2, 29, 12, 30, 15.25)
  {
    DaysBeforeMonthTable(1979);
    CommonToJulianInstant(CommonTime(1979, 10, 1, 0, 0, 0.0));
    CommonJulianRoundTrip(CommonTime(1979, 10, 1, 0, 0, 0.0));
    CommonJulianRoundTrip(CommonTime(2004, 2, 29, 12, 30, 15.25));
  }

  /** The clock fields survive the trip through seconds since noon. */
  lemma ClockThroughNoon(h: int, mi: int, sec: real, sn: int)
    requires 0 <= h < 24 && 0 <= mi < 60 && 0.0 <= sec < 60.0
    requires sn == CMod(h + 12, 24) * 3600 + mi * 60 + Trunc(sec)
    ensures CMod(CDiv(sn, 3600) + 12, 24) == h
    ensures CDiv(CMod(sn, 3600), 60) == mi
    ensures CMod(sn, 60) as real + (sec - Trunc(sec) as real) == sec
  {
    var s := Trunc(sec);
    var hh := CMod(h + 12, 24);
    assert 0 <= mi * 60 + s < 3600;
    assert CDiv(sn, 3600) == hh;
    assert CMod(sn, 3600) == mi * 60 + s;
    assert CDiv(mi * 60 + s, 60) == mi;
    assert sn == (hh * 60 + mi) * 60 + s;
    assert CMod(sn, 60) == s;
  }

  /** The seconds since noon survive the trip through the clock fields. */
  lemma NoonThroughClock(sn: int, tos: real, h: int, mi: int, sec: real)
    requires 0 <= sn < 86400 && 0.0 <= tos < 1.0
    requires h == CMod(CDiv(sn, 3600) + 12, 24) && mi == CDiv(CMod(sn, 3600), 60)
    requires sec == CMod(sn, 60) as real + tos
    ensures CMod(h + 12, 24) * 3600 + mi * 60 + Trunc(sec) == sn
    ensures sec - Trunc(sec) as real == tos
  {
    var q, r := sn / 3600, sn % 3600;
    assert sn == 3600 * q + r && 0 <= r < 3600;
    var m, s := r / 60, r % 60;
    assert r == 60 * m + s;
    assert sn == 60 * (60 * q + m) + s;
    assert CMod(sn, 60) == s;
    assert mi == m;
    assert CMod(h + 12, 24) == q;
    assert Trunc(sec) == s;
  }

  /** The clock fields survive calendar -> Julian Day -> calendar. */
  lemma ClockRoundTrip(ct: CommonTime)
    requires ValidClock(ct)
    ensures var back := JulianToCommon(CommonToJulian(ct));
            back.hour == ct.hour && back.minute == ct.minute && back.second == ct.second
  {
    ClockOfNoonTod(CommonToJulian(ct), ct);
  }

  /** A Julian day whose time of day is the clock time `ct` counted from
      noon shows that clock time. */
  lemma ClockOfNoonTod(jd: JulianDay, ct: CommonTime)
    requires ValidClock(ct)
    requires jd.tod.sn == CMod(ct.hour + 12, 24) * 3600 + ct.minute * 60 + Trunc(ct.second)
    requires jd.tod.tos == ct.second - Trunc(ct.second) as real
    ensures JulianToCommon(jd).hour == ct.hour
    ensures JulianToCommon(jd).minute == ct.minute
    ensures JulianToCommon(jd).second == ct.second
  {
    ClockThroughNoon(ct.hour, ct.minute, ct.second, jd.tod.sn);
  }

  /** Calendar -> Julian Day -> calendar returns the (year-disambiguated)
      input exactly, fraction of a second included. */
  lemma CommonJulianRoundTrip(ct: CommonTime)
    requires ValidCommon(ct)
    ensures JulianToCommon(CommonToJulian(ct)) == Normalized(ct)
  {
    CommonJulianDate(ct);
    ClockRoundTrip(ct);
  }

  /** The date half of the round trip. */
  lemma CommonJulianDate(ct: CommonTime)
    requires ValidCommon(ct)
    ensures DateOf(JulianToCommon(CommonToJulian(ct))) == DateOf(Normalized(ct))
  {
    DayNumberOfCommon(ct);
    DateOfDayNumber(CommonToJulian(ct), DateOf(Normalized(ct)));
  }

  /** A Julian day whose day number is that of a date converts to that date. */
  lemma DateOfDayNumber(jd: JulianDay, dt: Date)
    requires ValidDate(dt) && dt.year >= 1
    requires Trunc(JulianValue(jd) + 0.5) == DayCount(dt) + 1721410
    ensures DateOf(JulianToCommon(jd)) == dt
  {
    JulianToCommonDate(jd);
    DateFromDayNumberInverts(dt);
  }

  /** The Julian Day of a valid calendar time rounds (`(int)(x + 0.5)`) to
      the day count of its date plus 1721410, whatever the time of day. */
  lemma DayNumberOfCommon(ct: CommonTime)
    requires ValidCommon(ct)
    ensures Trunc(JulianValue(CommonToJulian(ct)) + 0.5) == DayCount(DateOf(Normalized(ct))) + 1721410
  {
    CommonToJulianInstant(ct);
    assert 0.0 <= ClockSeconds(ct) < 86400.0;
  }

  /** Seven days earlier in Julian days is the date with day count seven
      less, at the same clock time. */
  lemma JulianWeekEarlier(jd: JulianDay)
    requires ValidTod(jd.tod) && JulianValue(jd) >= 1721417.5
    ensures var back := JulianToCommon(WeekBefore(jd));
            var ct := JulianToCommon(jd);
            && DateOf(back) == DateOfDayCount(Trunc(JulianValue(jd) + 0.5) - 1721417)
            && back.hour == ct.hour && back.minute == ct.minute && back.second == ct.second
  {
    DayNumberWeekEarlier(jd);
    JulianToCommonDate(WeekBefore(jd));
    DateFromDayNumberCounts(Trunc(JulianValue(jd) + 0.5) - 7);
    SameTodSameClock(WeekBefore(jd), jd);
  }

  /** The date of a Julian day is the date of its day number. */
  lemma JulianToCommonDate(jd: JulianDay)
    ensures DateOf(JulianToCommon(jd)) == DateFromDayNumber(Trunc(JulianValue(jd) + 0.5))
  {
  }

  /** The clock fields depend on the time of day alone. */
  lemma SameTodSameClock(a: JulianDay, b: JulianDay)
    requires a.tod == b.tod
    ensures JulianToCommon(a).hour == JulianToCommon(b).hour
    ensures JulianToCommon(a).minute == JulianToCommon(b).minute
    ensures JulianToCommon(a).second == JulianToCommon(b).second
  {
  }

  /** Seven days earlier, the Julian day rounds to a day number seven less. */
  lemma DayNumberWeekEarlier(jd: JulianDay)
    requires JulianValue(jd) >= 7.0
    ensures Trunc(JulianValue(WeekBefore(jd)) + 0.5) == Trunc(JulianValue(jd) + 0.5) - 7
  {
    assert JulianValue(WeekBefore(jd)) + 0.5 == (JulianValue(jd) + 0.5) - 7.0;
  }


  /** The seconds of a Julian day survive the trip through the clock fields. */
  lemma NoonTodRoundTrip(jd: JulianDay)
    requires ValidTod(jd.tod)
    ensures CommonToJulian(JulianToCommon(jd)).tod == jd.tod
  {
    var ct := JulianToCommon(jd);
    NoonThroughClock(jd.tod.sn, jd.tod.tos, ct.hour, ct.minute, ct.second);
  }

  /** From 1900-01-01 00:00 on, a normalised Julian day decodes to a valid
      calendar time with a four-digit year, which the forward conversion
      takes as it is. */
  lemma JulianToCommonValid(jd: JulianDay)
    requires ValidTod(jd.tod) && JulianValue(jd) >= 2415019.5
    ensures ValidCommon(JulianToCommon(jd))
    ensures JulianToCommon(jd).year >= 1900
    ensures DateOf(JulianToCommon(jd)) == DateOfDayCount(Trunc(JulianValue(jd) + 0.5) - 1721410)
  {
    var a := Trunc(JulianValue(jd) + 0.5);
    DateFromDayNumberCounts(a);
    LaterDayCountLaterYear(a - 1721410, 1900);
    var ct := JulianToCommon(jd);
    assert DateOf(ct) == DateOfDayCount(a - 1721410);
    assert Normalized(ct) == ct;
  }

  /** Julian Day -> calendar -> Julian Day returns the input for every
      normalised Julian day from 1900-01-01 00:00 on. (Earlier instants decode
      to years below 1900, which the forward conversion reads as two-digit
      years.) */
  lemma JulianCommonRoundTrip(jd: JulianDay)
    requires ValidTod(jd.tod) && JulianValue(jd) >= 2415019.5
    ensures CommonToJulian(JulianToCommon(jd)) == jd
  {
    JulianCommonDay(jd);
    NoonTodRoundTrip(jd);
  }

  /** The day half of the round trip: the Julian day number comes back. */
  lemma JulianCommonDay(jd: JulianDay)
    requires ValidTod(jd.tod) && JulianValue(jd) >= 2415019.5
    ensures CommonToJulian(JulianToCommon(jd)).day == jd.day
  {
    var ct := JulianToCommon(jd);
    JulianToCommonValid(jd);
    assert Normalized(ct) == ct;
    CommonToJulianInstant(ct);
    DayNumberOfJulian(jd);
    AfternoonOfJulian(jd);
  }

  /** `(int)(JD + 0.5)` is the day, one more from midnight on. */
  lemma DayNumberOfJulian(jd: JulianDay)
    requires ValidTod(jd.tod) && jd.day >= 0
    ensures Trunc(JulianValue(jd) + 0.5) == jd.day + (if jd.tod.sn >= 43200 then 1 else 0)
  {
    var f := (jd.tod.sn as real + jd.tod.tos) / 86400.0 + 0.5;
    assert JulianValue(jd) + 0.5 == jd.day as real + f;
    if jd.tod.sn >= 43200 {
      TruncWholeAndFraction(jd.day + 1, f - 1.0);
    } else {
      TruncWholeAndFraction(jd.day, f);
    }
  }

  /** A Julian day time before midnight is an afternoon hour. */
  lemma AfternoonOfJulian(jd: JulianDay)
    requires ValidTod(jd.tod)
    ensures JulianToCommon(jd).hour >= 12 <==> jd.tod.sn < 43200
  {
    SecondsSinceNoon(jd.tod.sn);
  }
}

=== FILE: time_types.dfy ===
/** The four time representations of time_conver.c, as values. Every
    conversion takes one of these and produces a new one; nothing is updated
    in place (each C function only reads its input and writes only through
    its result pointer; four of them first copy the input with `memcpy`). */
module TimeTypes {

  /** `common_time_t`: a civil date and clock time. */
  datatype CommonTime = CommonTime(year: int, month: int, day: int, hour: int, minute: int, second: real)

  /** `tod_t` (and `tow_t`, which has the same layout): whole seconds `sn`
      and the fraction of a second `tos`. */
  datatype Tod = Tod(sn: int, tos: real)

  /** `tow_t`: seconds of the GPS week. */
  type Tow = Tod

  /** `julianday_t`: the Julian day number and the seconds since that day's noon. */
  datatype JulianDay = JulianDay(day: int, tod: Tod)

  /** `gps_time_t`: weeks since 1980-01-06 00:00 and seconds into the week. */
  datatype GpsTime = GpsTime(wn: int, tow: Tow)

  /** `doy_t`: year, day of the year (1 = 1 January) and seconds since midnight.
      `year` and `day` are `unsigned short` fields in C. */
  datatype Doy = Doy(year: int, day: int, tod: Tod)

  /** A calendar date without a clock time. */
  datatype Date = Date(year: int, month: int, day: int)

  /** The date part of a calendar time. */
  function DateOf(ct: CommonTime): Date
  {
    Date(ct.year, ct.month, ct.day)
  }

  /** Hour, minute and second are within one day. */
  predicate ValidClock(ct: CommonTime)
  {
    0 <= ct.hour < 24 && 0 <= ct.minute < 60 && 0.0 <= ct.second < 60.0
  }

  /** Seconds elapsed since midnight, fraction included. */
  function ClockSeconds(ct: CommonTime): real
  {
    (ct.hour * 3600 + ct.minute * 60) as real + ct.second
  }

  /** Whole seconds below one day and a fraction in [0, 1). */
  predicate ValidTod(t: Tod)
  {
    0 <= t.sn < 86400 && 0.0 <= t.tos < 1.0
  }

  /** The Julian day as one real number: `jd.day + (jd.tod.sn + jd.tod.tos) / 86400`. */
  function JulianValue(jd: JulianDay): real
  {
    jd.day as real + (jd.tod.sn as real + jd.tod.tos) / 86400.0
  }

  /** The same time of day seven days earlier. */
  function WeekBefore(jd: JulianDay): JulianDay
  {
    JulianDay(jd.day - 7, jd.tod)
  }
}
